=== FILE: README.md ===
# Hypem track resolution, modelled in Dafny

This project models `HypemTrackAdapter` of unhypem-boot. The adapter turns a Hype Machine (hypem)
track into the location of its audio file in four steps:

- **Identifier extraction.** `getHypemMediaIdFromUrl` trims the input. It checks for the prefix
  `http://hypem.com/track/`, splits the URI path on `/` and takes the third part.
- **Redirect resolution.** `getHostingGoUrl` sends a HEAD to `http://hypem.com/go/sc/<id>` and reads
  the `Location` header.
- **Host classification.** `isSoundcloudUrl` accepts a location whose host is exactly
  `soundcloud.com` and whose path is not `/not/found`.
- **Serve fallback.** When the location is not accepted, `getTrackUrlAccessKey` fetches the track
  page with the session cookie. It cuts the JSON embedded between two `<script>` tags and reads
  `tracks[0].key` from it. `getHostingServeJsonBody` then requests
  `http://hypem.com/serve/source/<id>/<key>`, and `extractUrlField` reads that answer's `url` member.

The model is pure functions over immutable data. The modules are:

- `Wrappers`: `Option`, and `Step`, the normal result or an escaping exception.
- `JavaText`: the Java and Commons Lang string operations the adapter uses. These are `String.trim`,
  `StringUtils.trim`, `isBlank` (with `Character.isWhitespace`), `startsWith`, `indexOf`,
  `substringBetween`, and `String.split` with a one-char separator.
- `Uris`: the part of `java.net.URI` the adapter reads, which is the host and the raw path of an
  http URI.
- `MediaIds`: identifier extraction.
- `HostClassifier`: `isSoundcloudUrl`.
- `KeyScrape`: the scrape of the access key.
- `Resolver`: `getFileUriByHypemId` and its private steps.

Every collaborator is a parameter, an `Upstream` value. These are the HTTP client (one function for
HEAD, one for cookie GETs), `URI.create` on texts built at run time, and the two Jackson lookup
chains. A resolution returns its outcome together with the requests it sent, in order.

The outcome is a URI, null (`Unresolved`), or an exception that escapes (`Crashed`). A request is
recorded once `URI.create` has accepted its text, that is, once the exchange was attempted.

Four behaviours of the code shape the model:

- **Exceptions escape.** The code catches only Jackson's `IOException` (`HypemTrackAdapter.java`
  lines 112 and 138). Everything else propagates out of `getFileUriByHypemId`:
  - `readTree(null)` on a track page without the embedded JSON;
  - the `NullPointerException` of a missing `tracks`, `key` or `url` member;
  - a transport failure;
  - a `Location` header on the go answer that Spring's `getLocation()` cannot parse as a URI (line 93);
  - on Spring versions before 6, a serve status code `HttpStatus` does not list, such as 520 (line 101);
  - a URL that `URI.create` rejects.

  The model yields `Crashed` in these cases. `Resolver.PageWithoutMarkerCrashes` and
  `Resolver.GoTransportFailureCrashes` state this.
- **A blank key is still sent.** When the embedded JSON is malformed, `getTrackUrlAccessKey` returns
  `""` (line 141). `getHostingServeJsonBody` then requests `serve/source/<id>/` with that empty key
  (line 98). `Resolver.EmptyKeyStillServed` states this.
- **The track page's status is ignored.** Line 131 reads the body of the track page whatever the
  status, because the error handler treats no status as an error (lines 151-163).
- **Path parts are counted as `split` counts them.** Line 85 takes element 2 of
  `getPath().split("/")`: element 0 is empty, element 1 is `track`, element 2 is the id. Both
  `http://hypem.com/track/` and `http://hypem.com/track//x` give `""`, for different reasons. For
  the first, Java's `split` drops the trailing empty string, so only two parts remain and the length
  test of line 83 fails. For the second, the split is `["", "track", "", "x"]`: nothing is dropped,
  and element 2 is the empty part between the two slashes.

## Model

| member | source | states |
|---|---|---|
| `JavaText.TrimOpt` | src/main/java/com/codecrafters/hypem/HypemTrackAdapter.java:51 | `StringUtils.trim` keeps null as null and maps a text to its `String.trim`, never longer than the input |
| `JavaText.Trim` | src/main/java/com/codecrafters/hypem/HypemTrackAdapter.java:51 | the trimmed text is no longer than the input, has no char at or below U+0020 at either end, and is empty exactly when the whole input is such chars |
| `JavaText.TrimIsPaddedInfix` | src/main/java/com/codecrafters/hypem/HypemTrackAdapter.java:51 | the trimmed text occurs in the input at some position, with only chars at or below U+0020 before and after it |
| `JavaText.TrimIdempotent` | src/main/java/com/codecrafters/hypem/HypemTrackAdapter.java:133 | trimming twice is trimming once |
| `JavaText.TrimIgnoresPadding` | src/main/java/com/codecrafters/hypem/HypemTrackAdapter.java:51 | padding of trimmable chars on either side never changes the trimmed text |
| `JavaText.StartsWith` | src/main/java/com/codecrafters/hypem/HypemTrackAdapter.java:52 | `StringUtils.startsWith` is false for null, and otherwise true exactly when the prefix fits in the text and agrees with it char by char |
| `JavaText.IsBlank` | src/main/java/com/codecrafters/hypem/HypemTrackAdapter.java:65-72 | null, the empty text and any text of Java whitespace only (such as `" "`) are blank, unlike `isEmpty`; a text holding any char that is not Java whitespace, at either end or inside, is not |
| `JavaText.IndexOf` | src/main/java/com/codecrafters/hypem/HypemTrackAdapter.java:132 | the search answers the first occurrence at or after the start, or None exactly when there is none |
| `JavaText.SubstringBetween` | src/main/java/com/codecrafters/hypem/HypemTrackAdapter.java:132 | a result is the text between the first opening marker and the first closing marker after it; null only for a null text or when no closing marker follows the first opening one |
| `JavaText.SubstringBetweenOf` | src/main/java/com/codecrafters/hypem/HypemTrackAdapter.java:132 | round trip: text placed between the two markers comes back whenever the opening marker does not start earlier and the closing marker does not start inside the text; the markers may hold any chars and either may occur later |
| `JavaText.SplitAll` | src/main/java/com/codecrafters/hypem/HypemTrackAdapter.java:82 | split on a char: at least one part, no part holds the separator, the first part is the text up to the first separator, and joining the parts gives the text back |
| `JavaText.JavaSplit` | src/main/java/com/codecrafters/hypem/HypemTrackAdapter.java:82 | `String.split`: the whole text as one part when the separator is absent; otherwise a prefix of the full split that drops only empty trailing parts and ends with a non-empty part (or is empty) |
| `MediaIds.ThirdPathPartIsFirstSegment` | src/main/java/com/codecrafters/hypem/HypemTrackAdapter.java:81-86 | for a track URL, element 2 of `getPath().split("/")` (or "" when there is none) is the first segment after the prefix, up to `/`, `?` or `#` |
| `MediaIds.ExtractIdFromHypemUrl` | src/main/java/com/codecrafters/hypem/HypemTrackAdapter.java:80-88 | the id of a track URL is its first segment after `http://hypem.com/track/` |
| `MediaIds.HypemMediaIdFromUrl` | src/main/java/com/codecrafters/hypem/HypemTrackAdapter.java:50-56 | "" for null and for any input whose trim lacks the prefix; otherwise the first segment after the prefix of the trimmed input; the id never holds `/`, `?` or `#` |
| `MediaIds.PaddingIsIgnored` | src/main/java/com/codecrafters/hypem/HypemTrackAdapter.java:51-53 | whitespace around the input never changes the id |
| `MediaIds.LaterPartsIgnored` | src/main/java/com/codecrafters/hypem/HypemTrackAdapter.java:82-85 | later path segments, the query and the fragment do not affect the id |
| `MediaIds.TrackUrlRoundTrip` | src/main/java/com/codecrafters/hypem/HypemTrackAdapter.java:50-56 | round trip: the id read from the track URL built from an id of URI chars is that id |
| `MediaIds.DocumentedExample` | src/main/java/com/codecrafters/hypem/HypemTrackAdapter.java:45 | `http://hypem.com/track/2c87x` gives `2c87x` |
| `MediaIds.EmptySegmentGivesEmpty` | src/main/java/com/codecrafters/hypem/HypemTrackAdapter.java:83-87 | the bare prefix, or an empty first segment, gives "" |
| `MediaIds.ForeignInputGivesEmpty` | src/main/java/com/codecrafters/hypem/HypemTrackAdapter.java:52-55 | null, or an input whose trim lacks the prefix, gives "" |
| `Uris.ParseHttpUri` | src/main/java/com/codecrafters/hypem/HypemTrackAdapter.java:81-82 | `URI.create` keeps the text, accepts only URI-safe text, always yields a path for an http URI, and reports a host only when it follows the host-name rule |
| `Uris.IsHostName` | src/main/java/com/codecrafters/hypem/HypemTrackAdapter.java:147 | a host name `getHost()` reports never starts with a dot or a dash or ends with a dash, and its last label, when there are several, starts with a letter |
| `Uris.ParseHttpUriOf` | src/main/java/com/codecrafters/hypem/HypemTrackAdapter.java:81-82 | `URI.create` on `http://` + host + tail reads back the tail up to `?` or `#` as the path, and reports host as the host exactly when it follows the host-name rule (null for a registry-based authority) |
| `Uris.HostNameRefusals` | src/main/java/com/codecrafters/hypem/HypemTrackAdapter.java:147 | `a..b`, `-x`, `x-` and `x.9y` are not host names, so `getHost()` is null for them |
| `Uris.TrailingDotAccepted` | src/main/java/com/codecrafters/hypem/HypemTrackAdapter.java:147 | a host name may end with a dot |
| `Uris.DigitLabelAccepted` | src/main/java/com/codecrafters/hypem/HypemTrackAdapter.java:147 | a label may start with a digit when it is not the last one (`x.9y.com`) |
| `Uris.TwoLabelHostName` | src/main/java/com/codecrafters/hypem/HypemTrackAdapter.java:147 | two labels of letters joined by a dot always form a host name |
| `HostClassifier.IsSoundcloudUrl` | src/main/java/com/codecrafters/hypem/HypemTrackAdapter.java:145-149 | acceptance implies a present URI whose host is exactly `soundcloud.com`; for such a URI, acceptance holds exactly when the path is not `/not/found` |
| `HostClassifier.SoundcloudIsHostName` | src/main/java/com/codecrafters/hypem/HypemTrackAdapter.java:147 | `soundcloud.com` follows the host-name rule, so `getHost()` reports it |
| `HostClassifier.ClassifyHttpText` | src/main/java/com/codecrafters/hypem/HypemTrackAdapter.java:145-149 | on a plain http URI whose authority has a letter, the classifier accepts exactly the host `soundcloud.com` with a path other than `/not/found` (both directions); an authority that is not a host name is rejected |
| `HostClassifier.ClassifyPlainPath` | src/main/java/com/codecrafters/hypem/HypemTrackAdapter.java:145-149 | for a path without query or fragment, acceptance is host equal to `soundcloud.com` and path unequal to `/not/found` (both directions) |
| `HostClassifier.AbsentLocationRejected` | src/main/java/com/codecrafters/hypem/HypemTrackAdapter.java:146 | a null location is rejected |
| `HostClassifier.OtherHostRejected` | src/main/java/com/codecrafters/hypem/HypemTrackAdapter.java:147 | any other host, including a null host, is rejected whatever the path |
| `HostClassifier.PlaceholderRejected` | src/main/java/com/codecrafters/hypem/HypemTrackAdapter.java:148 | the path `/not/found` is rejected even on the SoundCloud host |
| `HostClassifier.SoundcloudTrackAccepted` | src/main/java/com/codecrafters/hypem/HypemTrackAdapter.java:145-149 | `http://soundcloud.com/artist/track` is accepted |
| `HostClassifier.HostMatchIsCaseSensitive` | src/main/java/com/codecrafters/hypem/HypemTrackAdapter.java:147 | `http://SoundCloud.com/artist/track` is rejected: the host comparison is case-sensitive |
| `HostClassifier.PlaceholderWithQueryRejected` | src/main/java/com/codecrafters/hypem/HypemTrackAdapter.java:148 | `http://soundcloud.com/not/found?x=1` is rejected: the query is not part of the path |
| `HostClassifier.PlaceholderMatchIsExact` | src/main/java/com/codecrafters/hypem/HypemTrackAdapter.java:148 | the path comparison is exact: `http://soundcloud.com/not/found/` is accepted while `http://soundcloud.com/not/found` is rejected |
| `HostClassifier.PlaceholderTextRejected` | src/main/java/com/codecrafters/hypem/HypemTrackAdapter.java:148 | `http://` + any host + `/not/found` is rejected |
| `HostClassifier.OtherHostExampleRejected` | src/main/java/com/codecrafters/hypem/HypemTrackAdapter.java:147 | `http://notfound.example.com/not/found` is rejected |
| `HostClassifier.RegistryAuthorityRejected` | src/main/java/com/codecrafters/hypem/HypemTrackAdapter.java:147 | `http://soundcloud..com/artist/track` parses with no host and is rejected |
| `KeyScrape.SongJson` | src/main/java/com/codecrafters/hypem/HypemTrackAdapter.java:131-133 | null for a null body; a fragment exists only when the opening tag occurs in the body, and it is already trimmed |
| `KeyScrape.TrackUrlAccessKey` | src/main/java/com/codecrafters/hypem/HypemTrackAdapter.java:131-143 | no fragment throws; otherwise the lookup decides: its text is the key, malformed JSON gives "", a missing member throws (all directions) |
| `KeyScrape.SongJsonOfPage` | src/main/java/com/codecrafters/hypem/HypemTrackAdapter.java:131-133 | round trip: JSON embedded between the two script tags comes back trimmed whenever the opening tag does not occur earlier and the closing tag does not start inside the JSON; other markup may appear anywhere |
| `KeyScrape.KeyOfPage` | src/main/java/com/codecrafters/hypem/HypemTrackAdapter.java:131-137 | the key of a page that embeds JSON holding a key, under the same placement condition, is that key |
| `KeyScrape.MalformedJsonGivesEmptyKey` | src/main/java/com/codecrafters/hypem/HypemTrackAdapter.java:135-142 | malformed embedded JSON, under the same placement condition, degrades to the key "" |
| `KeyScrape.MissingOpenMarkerThrows` | src/main/java/com/codecrafters/hypem/HypemTrackAdapter.java:131-136 | a page without the opening tag yields no fragment, and the exception of `readTree(null)` escapes |
| `KeyScrape.MissingCloseMarkerThrows` | src/main/java/com/codecrafters/hypem/HypemTrackAdapter.java:131-136 | a page without the closing tag yields no fragment, and the exception escapes |
| `KeyScrape.NullBodyThrows` | src/main/java/com/codecrafters/hypem/HypemTrackAdapter.java:131-136 | a null page body ends in an escaping exception |
| `Resolver.HostingGoUrl` | src/main/java/com/codecrafters/hypem/HypemTrackAdapter.java:90-94 | the HEAD is sent once its URI is built; a location is produced exactly when that request is answered, and it is the answer's |
| `Resolver.TrackPageKey` | src/main/java/com/codecrafters/hypem/HypemTrackAdapter.java:127-131 | the track-page GET is sent once its URI is built; an answered request yields exactly the key scraped from its body; no URI or a transport failure throws |
| `Resolver.ServeWithKey` | src/main/java/com/codecrafters/hypem/HypemTrackAdapter.java:98-104 | the serve GET is sent once its URI is built; it throws exactly when the URI is rejected or the exchange fails; otherwise the body for status 200 and "" for any other status |
| `Resolver.HostingServeJsonBody` | src/main/java/com/codecrafters/hypem/HypemTrackAdapter.java:96-105 | the requests are exactly: none, the track page, or the track page then the serve endpoint with the key read from it, each by which step throws; a body comes exactly when the serve request is answered: its body for 200, "" otherwise |
| `Resolver.ExtractUrlField` | src/main/java/com/codecrafters/hypem/HypemTrackAdapter.java:107-117 | null exactly for malformed JSON; an escaping exception exactly for a missing member or a URL `URI.create` rejects; otherwise the URI of the `url` member |
| `Resolver.ServeFallback` | src/main/java/com/codecrafters/hypem/HypemTrackAdapter.java:71-74 | the same exact requests as the serve body; it resolves to a URI exactly when the serve answer is a 200 with a non-blank body whose `url` member is that URI; no answer crashes; a non-200 or blank answer gives null; after a 200 non-blank answer, malformed JSON gives null, while a missing `url` member or one `URI.create` rejects crashes |
| `Resolver.FileUriByHypemId` | src/main/java/com/codecrafters/hypem/HypemTrackAdapter.java:64-78 | a blank id gives null with no request; otherwise, once `URI.create` accepts the go URL, the go request goes first, and a rejected go URL crashes with no request; at most three requests, none repeated; a returned URI is either the accepted go location or the serve answer's `url` member |
| `Resolver.EndpointsDiffer` | src/main/java/com/codecrafters/hypem/HypemTrackAdapter.java:29-31 | the go, track-page and serve URLs of one id never coincide |
| `Resolver.FallbackRequestsDistinct` | src/main/java/com/codecrafters/hypem/HypemTrackAdapter.java:91-128 | the go request followed by the fallback's requests repeats none |
| `Resolver.FastPath` | src/main/java/com/codecrafters/hypem/HypemTrackAdapter.java:64-68 | an accepted go location is returned unchanged after the go request alone |
| `Resolver.GoesToFallback` | src/main/java/com/codecrafters/hypem/HypemTrackAdapter.java:67-71 | a go location that fails the classifier leaves the outcome to the fallback, after the go request |
| `Resolver.TrackPageIffNotSoundcloud` | src/main/java/com/codecrafters/hypem/HypemTrackAdapter.java:67-71 | the track page is requested exactly when the go location is not accepted (both directions) |
| `Resolver.ServeAlwaysRequested` | src/main/java/com/codecrafters/hypem/HypemTrackAdapter.java:96-98 | once a key is read, whatever it is, the requests are go, track page, serve with that key |
| `Resolver.EmptyKeyStillServed` | src/main/java/com/codecrafters/hypem/HypemTrackAdapter.java:96-98 | malformed embedded JSON still leads to the serve request, with the empty key |
| `Resolver.ServeAnswerDecides` | src/main/java/com/codecrafters/hypem/HypemTrackAdapter.java:99-117 | a non-200 or blank serve answer gives null; otherwise the `url` member's URI, an escaping exception when `URI.create` rejects its text, null for malformed JSON, an escaping exception for a missing member |
| `Resolver.NoCrashWhenCooperative` | src/main/java/com/codecrafters/hypem/HypemTrackAdapter.java:64-78 | when every collaborator answers and the track page embeds the JSON, no exception escapes |
| `Resolver.PageWithoutMarkerCrashes` | src/main/java/com/codecrafters/hypem/HypemTrackAdapter.java:131-137 | a track page without the opening tag makes the resolution end in an escaping exception, after the go and track-page requests |
| `Resolver.GoTransportFailureCrashes` | src/main/java/com/codecrafters/hypem/HypemTrackAdapter.java:90-94 | a transport failure of the go request escapes after that request |
| `Resolver.SoundcloudRedirectExample` | src/main/java/com/codecrafters/hypem/HypemTrackAdapter.java:64-68 | id `2c87x` redirected to `http://soundcloud.com/artist/track` resolves to that URI after one request |
| `Resolver.ServeFallbackExample` | src/main/java/com/codecrafters/hypem/HypemTrackAdapter.java:69-74 | id `zz999` redirected elsewhere, with key `k9` and a serve answer naming `http://cdn.example.com/zz999.mp3`, resolves to that URI after three requests |

## Left out

- HTTP I/O. The exchanges are parameters of `Upstream`: one function for the HEAD and one for the cookie GETs.
- The session cookie's value (`HYPEM_AUTH_COOKIE`). The model records which requests carry it (`CookieGet`), not its text.
- The `RestTemplate` error handler (`setupRestErrorHandler`). Its effect is modelled: every status reaches the adapter as an answer. An exchange that throws is a `TransportFailure`: an I/O failure of the client, a `Location` header that Spring's `getLocation()` cannot parse (the HEAD at line 93), or, on Spring versions before 6, a status code `HttpStatus` does not list, which `getStatusCode()` rejects (line 101). Which of these it was is not modelled; all three escape.
- Jackson. Each lookup chain is abstracted to its three possible ends (`JsonField`): a text, malformed JSON (the caught `IOException`), or a missing node (the uncaught `NullPointerException`). What text `asText()` gives for non-text nodes is not modelled.
- `printStackTrace` in the two catch blocks. It is output only.
- The constructor and `Charts.java`. They hold no logic of the resolution.
- Concurrency. Each call is independent and keeps no state.
- `URI.create` on texts built at run time is a parameter of `Upstream` (`createUri`). When it throws, the resolution crashes before the request.
- `MediaIds.HypemMediaIdFromUrl`: requires the trimmed, prefixed input to be URI-safe (`MediaIds.WithinUriModel`), because the full grammar of `java.net.URI` is not modelled. That means ASCII letters, digits, and the RFC 2396 marks and reserved chars (`; / ? : @ & = + $ ,`, brackets excluded), with at most one `#`. Out of the model are percent escapes (which `getPath` would decode), unescaped non-ASCII chars other than spaces and controls (which `java.net.URI` accepts in the path), other chars `URI.create` rejects (where the source would throw), and IPv6 or user-info authorities. The chars `[` and `]` are out as well: `URI.create` accepts them in the query and fragment (RFC 2732 adds them to the reserved chars), so for `http://hypem.com/track/abc?x[0]=1` the source returns `abc`, but `Uris.IsUriChar` excludes them and the input lies outside the model.
- `Uris.ParseHttpUri`: covers only http URIs whose authority consists of letters, digits, dots and dashes with at least one letter, and is None elsewhere. An authority of digits and dots alone may be an IPv4 address, a one-label host or a registry name in `java.net.URI`, and which one depends on rules not modelled. Ports, user info, IPv6 literals and non-ASCII chars are out as well. A covered authority that breaks the host-name rule of section 3.2.2 of RFC 2396 is modelled as `java.net.URI` keeps it, a registry-based authority with a null host.
- `MediaIds.ExtractIdFromHypemUrl`: the same URI-safety requirement, for the same reason.
- `JavaText.IndexOf`: requires the start position to be inside the text. Java also accepts a start past the end, but `substringBetween` never passes one.
- `JavaText.IsBlank`: the whitespace set is that of `Character.isWhitespace` from Unicode 6.3 on. On Java 8, which follows Unicode 6.2, U+180E also counts as whitespace; the model treats it as not blank.
- Java chars are UTF-16 code units; Dafny chars are Unicode scalar values. The text operations only compare chars, so nothing in the model depends on the difference.

=== FILE: host_classifier.dfy ===
/** The host classifier: is a resolved location a usable SoundCloud URL? */
module HostClassifier {
  import opened Wrappers
  import opened JavaText
  import opened Uris

  const SOUNDCLOUD_HOST_NAME := "soundcloud.com"

  /** The path hypem redirects to when it has no hosting location. */
  const NOT_FOUND_PATH := "/not/found"

  /** isSoundcloudUrl: the URI is present, its host equals "soundcloud.com"
      exactly (StringUtils.equals: case-sensitive, false for a null host) and
      its path is not "/not/found" (a null path passes). */
  predicate IsSoundcloudUrl(fileUri: Option<Uri>): (accepted: bool)
    ensures accepted ==> fileUri.Some? && fileUri.value.host == Some(SOUNDCLOUD_HOST_NAME)
    ensures fileUri.Some? && fileUri.value.host == Some(SOUNDCLOUD_HOST_NAME) ==>
              (accepted <==> fileUri.value.path != Some(NOT_FOUND_PATH))
  {
    && fileUri.Some?
    && fileUri.value.host == Some(SOUNDCLOUD_HOST_NAME)
    && fileUri.value.path != Some(NOT_FOUND_PATH)
  }

  /** soundcloud.com follows the host-name rule, so java.net.URI reports it
      as the host. */
  lemma SoundcloudIsHostName()
    ensures IsHostName(SOUNDCLOUD_HOST_NAME) && HasLetter(SOUNDCLOUD_HOST_NAME)
  {
    assert SOUNDCLOUD_HOST_NAME == "soundcloud" + "." + "com";
    TwoLabelHostName("soundcloud", "com");
  }

  /** On the text of a plain http URI the classifier accepts exactly the host
      soundcloud.com with any path but the placeholder; the query and the
      fragment play no part, and an authority that is not a host name (no
      host) is rejected. */
  lemma ClassifyHttpText(host: string, tail: string)
    requires IsHostChars(host) && HasLetter(host)
    requires tail == [] || tail[0] in AUTHORITY_STOPS
    requires UriSafe(HTTP_SCHEME_PREFIX + host + tail)
    ensures IsSoundcloudUrl(ParseHttpUri(HTTP_SCHEME_PREFIX + host + tail))
        <==> host == SOUNDCLOUD_HOST_NAME && Before(tail, PATH_STOPS) != NOT_FOUND_PATH
  {
    ParseHttpUriOf(host, tail);
    SoundcloudIsHostName();
  }

  /** A missing location is never accepted. */
  lemma AbsentLocationRejected()
    ensures !IsSoundcloudUrl(None)
  {
  }

  /** A host that differs from soundcloud.com in any way, letter case and
      subdomains included, is rejected whatever the path. */
  lemma OtherHostRejected(u: Uri)
    requires u.host != Some(SOUNDCLOUD_HOST_NAME)
    ensures !IsSoundcloudUrl(Some(u))
  {
  }

  /** The placeholder path is rejected even on the SoundCloud host. */
  lemma PlaceholderRejected(u: Uri)
    requires u.path == Some(NOT_FOUND_PATH)
    ensures !IsSoundcloudUrl(Some(u))
  {
  }

  /** A path of plain URI chars with no query or fragment is the path itself,
      so the classifier compares it as written. */
  lemma ClassifyPlainPath(host: string, path: string)
    requires IsHostChars(host) && HasLetter(host)
    requires path == [] || path[0] == '/'
    requires forall i :: 0 <= i < |path| ==> IsUriChar(path[i]) && path[i] !in PATH_STOPS
    ensures IsSoundcloudUrl(ParseHttpUri(HTTP_SCHEME_PREFIX + host + path))
        <==> host == SOUNDCLOUD_HOST_NAME && path != NOT_FOUND_PATH
  {
    UriSafeOfParts(host, path);
    BeforeStopsAt(path, [], PATH_STOPS);
    assert path + [] == path;
    ClassifyHttpText(host, path);
  }

  /** "http://soundcloud.com/artist/track" is accepted as it stands. */
  lemma SoundcloudTrackAccepted(host: string, path: string)
    requires host == "soundcloud.com" && path == "/artist/track"
    ensures IsSoundcloudUrl(ParseHttpUri(HTTP_SCHEME_PREFIX + host + path))
  {
    SoundcloudIsHostName();
    assert forall i :: 0 <= i < |path| ==> IsUriChar(path[i]) && path[i] !in PATH_STOPS;
    ClassifyPlainPath(host, path);
    assert |path| != |NOT_FOUND_PATH|;
  }

  /** The upper-case spelling "SoundCloud.com" is a different host. */
  lemma HostMatchIsCaseSensitive(host: string, path: string)
    requires host == "SoundCloud.com" && path == "/artist/track"
    ensures !IsSoundcloudUrl(ParseHttpUri(HTTP_SCHEME_PREFIX + host + path))
  {
    assert IsHostChars(host) && IsAsciiAlpha(host[0]);
    assert forall i :: 0 <= i < |path| ==> IsUriChar(path[i]) && path[i] !in PATH_STOPS;
    ClassifyPlainPath(host, path);
    assert host[0] != SOUNDCLOUD_HOST_NAME[0];
  }

  /** The placeholder followed by a query is still the placeholder path. */
  lemma PlaceholderWithQueryRejected(host: string, query: string)
    requires host == "soundcloud.com" && query == "?x=1"
    ensures !IsSoundcloudUrl(ParseHttpUri(HTTP_SCHEME_PREFIX + host + NOT_FOUND_PATH + query))
  {
    var tail := NOT_FOUND_PATH + query;
    SoundcloudIsHostName();
    assert forall i :: 0 <= i < |NOT_FOUND_PATH| ==> IsUriChar(NOT_FOUND_PATH[i]) && NOT_FOUND_PATH[i] != '#';
    assert forall i :: 0 <= i < |query| ==> IsUriChar(query[i]) && query[i] != '#';
    CleanAppend(NOT_FOUND_PATH, query);
    UriSafeOfParts(host, tail);
    assert forall i :: 0 <= i < |NOT_FOUND_PATH| ==> NOT_FOUND_PATH[i] !in PATH_STOPS;
    BeforeStopsAt(NOT_FOUND_PATH, query, PATH_STOPS);
    assert HTTP_SCHEME_PREFIX + host + NOT_FOUND_PATH + query == HTTP_SCHEME_PREFIX + host + tail;
    ClassifyHttpText(host, tail);
  }

  /** Two texts of URI chars without '#' concatenate to one. */
  lemma CleanAppend(a: string, b: string)
    requires forall i :: 0 <= i < |a| ==> IsUriChar(a[i]) && a[i] != '#'
    requires forall i :: 0 <= i < |b| ==> IsUriChar(b[i]) && b[i] != '#'
    ensures forall i :: 0 <= i < |a + b| ==> IsUriChar((a + b)[i]) && (a + b)[i] != '#'
  {
    forall i | 0 <= i < |a + b|
      ensures IsUriChar((a + b)[i]) && (a + b)[i] != '#'
    {
      if i >= |a| {
        assert (a + b)[i] == b[i - |a|];
      }
    }
  }

  /** The text of the placeholder location is rejected whatever the host. */
  lemma PlaceholderTextRejected(host: string)
    requires IsHostChars(host) && HasLetter(host)
    ensures !IsSoundcloudUrl(ParseHttpUri(HTTP_SCHEME_PREFIX + host + NOT_FOUND_PATH))
  {
    assert forall i :: 0 <= i < |NOT_FOUND_PATH| ==> IsUriChar(NOT_FOUND_PATH[i]) && NOT_FOUND_PATH[i] !in PATH_STOPS;
    ClassifyPlainPath(host, NOT_FOUND_PATH);
  }

  /** The placeholder is compared exactly: with a trailing slash the path is
      accepted, without it the same host is rejected. */
  lemma PlaceholderMatchIsExact(host: string, path: string)
    requires host == "soundcloud.com" && path == "/not/found/"
    ensures IsSoundcloudUrl(ParseHttpUri(HTTP_SCHEME_PREFIX + host + path))
    ensures !IsSoundcloudUrl(ParseHttpUri(HTTP_SCHEME_PREFIX + host + NOT_FOUND_PATH))
  {
    SoundcloudIsHostName();
    assert forall i :: 0 <= i < |path| ==> IsUriChar(path[i]) && path[i] !in PATH_STOPS;
    ClassifyPlainPath(host, path);
    assert |path| != |NOT_FOUND_PATH|;
    PlaceholderTextRejected(host);
  }

  /** "http://notfound.example.com/not/found" is rejected: another host. */
  lemma OtherHostExampleRejected(host: string, path: string)
    requires host == "notfound.example.com" && path == "/not/found"
    ensures !IsSoundcloudUrl(ParseHttpUri(HTTP_SCHEME_PREFIX + host + path))
  {
    assert IsHostChars(host) && IsAsciiAlpha(host[0]);
    assert forall i :: 0 <= i < |path| ==> IsUriChar(path[i]) && path[i] !in PATH_STOPS;
    ClassifyPlainPath(host, path);
    assert |host| != |SOUNDCLOUD_HOST_NAME|;
  }

  /** A doubled dot is not a host name: java.net.URI keeps
      "soundcloud..com" as a registry-based authority with no host, and the
      classifier rejects it. */
  lemma RegistryAuthorityRejected(host: string, path: string)
    requires host == "soundcloud..com" && path == "/artist/track"
    ensures ParseHttpUri(HTTP_SCHEME_PREFIX + host + path).Some?
    ensures ParseHttpUri(HTTP_SCHEME_PREFIX + host + path).value.host == None
    ensures !IsSoundcloudUrl(ParseHttpUri(HTTP_SCHEME_PREFIX + host + path))
  {
    assert IsHostChars(host) && IsAsciiAlpha(host[0]);
    assert host[10] == '.' && !IsAsciiAlphaNum(host[11]);
    assert forall i :: 0 <= i < |path| ==> IsUriChar(path[i]) && path[i] != '#';
    UriSafeOfParts(host, path);
    ParseHttpUriOf(host, path);
  }
}

=== FILE: java_text.dfy ===
/** The part of java.lang.String and of Apache Commons Lang's StringUtils that
    the adapter relies on, over Dafny strings. A Java null string is None. */
module JavaText {
  import opened Wrappers

  // ---------------------------------------------------------------------------
  // Trimming: String.trim and the null-safe StringUtils.trim
  // ---------------------------------------------------------------------------

  /** String.trim removes every leading and trailing char at or below U+0020. */
  predicate IsTrimmable(c: char) {
    c <= ' '
  }

  predicate AllTrimmable(s: string) {
    forall i :: 0 <= i < |s| ==> IsTrimmable(s[i])
  }

  /** s without its leading trimmable chars. */
  function TrimStart(s: string): (r: string)
    ensures |r| <= |s| && r == s[|s| - |r|..]
    ensures forall i :: 0 <= i < |s| - |r| ==> IsTrimmable(s[i])
    ensures r == [] || !IsTrimmable(r[0])
    decreases |s|
  {
    if |s| > 0 && IsTrimmable(s[0]) then TrimStart(s[1..]) else s
  }

  /** s without its trailing trimmable chars. */
  function TrimEnd(s: string): (r: string)
    ensures r <= s
    ensures forall i :: |r| <= i < |s| ==> IsTrimmable(s[i])
    ensures r == [] || !IsTrimmable(r[|r| - 1])
    decreases |s|
  {
    if |s| > 0 && IsTrimmable(s[|s| - 1]) then TrimEnd(s[..|s| - 1]) else s
  }

  /** String.trim: s without the trimmable chars at either end
      (TrimIsPaddedInfix says where in s the result sits). */
  function Trim(s: string): (r: string)
    ensures |r| <= |s|
    ensures r == [] || (!IsTrimmable(r[0]) && !IsTrimmable(r[|r| - 1]))
    ensures r == [] <==> AllTrimmable(s)
  {
    var t := TrimStart(s);
    assert t != [] ==> t[0] == s[|s| - |t|];
    TrimEnd(t)
  }

  /** r occurs in s at i, with only trimmable chars before and after it. */
  predicate PaddedAt(s: string, r: string, i: int) {
    && 0 <= i <= |s| - |r|
    && r == s[i..i + |r|]
    && AllTrimmable(s[..i])
    && AllTrimmable(s[i + |r|..])
  }

  /** Trim's result is an infix of s that only trimmable chars surround. */
  lemma TrimIsPaddedInfix(s: string)
    ensures exists i :: PaddedAt(s, Trim(s), i)
  {
    var t := TrimStart(s);
    assert Trim(s) == TrimEnd(t);
    PaddedInfix(s, t, Trim(s));
  }

  /** A prefix r of a suffix t of s, where s before t and t after r are
      padding, sits in s between padding. */
  lemma PaddedInfix(s: string, t: string, r: string)
    requires |t| <= |s| && t == s[|s| - |t|..]
    requires forall i :: 0 <= i < |s| - |t| ==> IsTrimmable(s[i])
    requires r <= t
    requires forall i :: |r| <= i < |t| ==> IsTrimmable(t[i])
    ensures PaddedAt(s, r, |s| - |t|)
  {
    var i := |s| - |t|;
    assert forall k :: 0 <= k < |t| ==> t[k] == s[i + k];
    assert forall k :: 0 <= k < |r| ==> r[k] == t[k];
    assert r == s[i..i + |r|];
    assert forall k :: 0 <= k < i ==> s[..i][k] == s[k];
    assert forall k :: i + |r| <= k < |s| ==> s[k] == t[k - i];
    assert AllTrimmable(s[..i]) && AllTrimmable(s[i + |r|..]);
  }

  /** A string with no trimmable char at either end is its own trim. */
  lemma TrimOfClean(s: string)
    requires s == [] || (!IsTrimmable(s[0]) && !IsTrimmable(s[|s| - 1]))
    ensures Trim(s) == s
  {
    assert TrimStart(s) == s;
    assert TrimEnd(s) == s;
  }

  /** Trimming is idempotent. */
  lemma TrimIdempotent(s: string)
    ensures Trim(Trim(s)) == Trim(s)
  {
    var r := Trim(s);
    assert TrimStart(r) == r;
    assert TrimEnd(r) == r;
  }

  /** StringUtils.trim: null stays null. */
  function TrimOpt(s: Option<string>): (r: Option<string>)
    ensures r.Some? <==> s.Some?
    ensures s.Some? ==> r.value == Trim(s.value) && |r.value| <= |s.value|
  {
    match s
    case None => None
    case Some(v) => Some(Trim(v))
  }

  lemma {:induction false} TrimStartSkipsPadding(ws: string, u: string)
    requires AllTrimmable(ws)
    ensures TrimStart(ws + u) == TrimStart(u)
    decreases |ws|
  {
    if ws != [] {
      assert (ws + u)[0] == ws[0];
      assert (ws + u)[1..] == ws[1..] + u;
      TrimStartSkipsPadding(ws[1..], u);
    } else {
      assert ws + u == u;
    }
  }

  lemma {:induction false} TrimEndSkipsPadding(u: string, ws: string)
    requires AllTrimmable(ws)
    ensures TrimEnd(u + ws) == TrimEnd(u)
    decreases |ws|
  {
    if ws != [] {
      assert (u + ws)[..|u + ws| - 1] == u + ws[..|ws| - 1];
      TrimEndSkipsPadding(u, ws[..|ws| - 1]);
    } else {
      assert u + ws == u;
    }
  }

  /** Trailing padding survives TrimStart unless everything is padding. */
  lemma {:induction false} TrimStartKeepsTail(u: string, ws: string)
    requires AllTrimmable(ws)
    ensures TrimStart(u + ws) == if TrimStart(u) == [] then [] else TrimStart(u) + ws
    decreases |u|
  {
    if u == [] {
      assert u + ws == ws;
    } else if IsTrimmable(u[0]) {
      assert (u + ws)[1..] == u[1..] + ws;
      TrimStartKeepsTail(u[1..], ws);
    }
  }

  /** Padding at either end never changes the result of String.trim. */
  lemma TrimIgnoresPadding(ws1: string, u: string, ws2: string)
    requires AllTrimmable(ws1) && AllTrimmable(ws2)
    ensures Trim(ws1 + u + ws2) == Trim(u)
  {
    var x := ws1 + u + ws2;
    assert x == ws1 + (u + ws2);
    TrimStartSkipsPadding(ws1, u + ws2);
    TrimStartKeepsTail(u, ws2);
    var t := TrimStart(u);
    assert Trim(x) == TrimEnd(TrimStart(x)) && Trim(u) == TrimEnd(t);
    if t != [] {
      assert TrimStart(x) == t + ws2;
      TrimEndSkipsPadding(t, ws2);
    } else {
      assert TrimStart(x) == [];
    }
  }

  // ---------------------------------------------------------------------------
  // Blankness and prefixes: StringUtils.isBlank / isNotBlank / startsWith
  // ---------------------------------------------------------------------------

  /** Character.isWhitespace: the Unicode space, line and paragraph separators
      except the no-break spaces U+00A0, U+2007 and U+202F, plus the controls
      U+0009..U+000D and U+001C..U+001F. */
  predicate IsJavaWhitespace(c: char) {
    || ('\t' <= c <= '\r')
    || ('\U{1C}' <= c <= ' ')
    || c == '\U{1680}'
    || ('\U{2000}' <= c <= '\U{2006}')
    || ('\U{2008}' <= c <= '\U{200A}')
    || c == '\U{2028}' || c == '\U{2029}' || c == '\U{205F}' || c == '\U{3000}'
  }

  /** StringUtils.isBlank: null, empty, or whitespace only. */
  predicate IsBlank(s: Option<string>): (blank: bool)
    ensures s.None? || s == Some([]) ==> blank
    ensures s.Some? && |s.value| > 0 && !IsJavaWhitespace(s.value[0]) ==> !blank
    ensures s.Some? && |s.value| > 0 && !IsJavaWhitespace(s.value[|s.value| - 1]) ==> !blank
    ensures s.Some? && (forall c | c in s.value :: IsJavaWhitespace(c)) ==> blank
    ensures s.Some? && (exists c | c in s.value :: !IsJavaWhitespace(c)) ==> !blank
  {
    match s
    case None => true
    case Some(v) => forall i :: 0 <= i < |v| ==> IsJavaWhitespace(v[i])
  }

  /** StringUtils.startsWith: false for null. */
  predicate StartsWith(s: Option<string>, prefix: string): (ok: bool)
    ensures s.None? ==> !ok
    ensures ok <==> s.Some? && |prefix| <= |s.value| && forall i :: 0 <= i < |prefix| ==> s.value[i] == prefix[i]
  {
    s.Some? && prefix <= s.value
  }

  // ---------------------------------------------------------------------------
  // Searching: String.indexOf and StringUtils.substringBetween
  // ---------------------------------------------------------------------------

  predicate OccursAt(s: string, pat: string, k: int) {
    0 <= k && k + |pat| <= |s| && s[k..k + |pat|] == pat
  }

  /** k is the first position at or after `from` where pat occurs in s. */
  predicate FirstFrom(s: string, pat: string, from: int, k: int) {
    from <= k && OccursAt(s, pat, k) && forall j :: from <= j < k ==> !OccursAt(s, pat, j)
  }

  /** String.indexOf(pat, from), for a start position inside the string. */
  function IndexOf(s: string, pat: string, from: nat): (r: Option<nat>)
    requires from <= |s|
    ensures r.Some? ==> FirstFrom(s, pat, from, r.value)
    ensures r.None? ==> forall k :: from <= k ==> !OccursAt(s, pat, k)
    decreases |s| - from
  {
    if from + |pat| > |s| then None
    else if s[from..from + |pat|] == pat then Some(from)
    else IndexOf(s, pat, from + 1)
  }

  lemma FirstFromUnique(s: string, pat: string, from: int, k1: int, k2: int)
    requires FirstFrom(s, pat, from, k1) && FirstFrom(s, pat, from, k2)
    ensures k1 == k2
  {
  }

  /** StringUtils.substringBetween(str, open, close): the text between the first
      `open` and the first `close` after it; null when str is null or either
      marker is missing. */
  function SubstringBetween(str: Option<string>, open: string, close: string): (r: Option<string>)
    ensures r.Some? ==>
              && str.Some?
              && exists a :: && FirstFrom(str.value, open, 0, a)
                             && FirstFrom(str.value, close, a + |open|, a + |open| + |r.value|)
                             && r.value == str.value[a + |open|..a + |open| + |r.value|]
    ensures r.None? ==> str.None? || forall a :: FirstFrom(str.value, open, 0, a) ==>
                          forall k :: a + |open| <= k ==> !OccursAt(str.value, close, k)
  {
    match str
    case None => None
    case Some(s) =>
      match IndexOf(s, open, 0)
      case None => None
      case Some(a) =>
        match IndexOf(s, close, a + |open|)
        case None =>
          assert forall a' :: FirstFrom(s, open, 0, a') ==> a' == a by {
            forall a' | FirstFrom(s, open, 0, a')
              ensures a' == a
            {
              FirstFromUnique(s, open, 0, a, a');
            }
          }
          None
        case Some(b) => Some(s[a + |open|..b])
  }

  /** Round trip of substringBetween: the text between the markers comes back
      provided the opening marker does not start earlier, inside pre, and
      the closing marker does not start inside mid. Either may occur in post,
      and the markers may hold any chars. */
  lemma SubstringBetweenOf(pre: string, open: string, mid: string, close: string, post: string)
    requires forall k :: 0 <= k < |pre| ==> !OccursAt(pre + open, open, k)
    requires forall k :: 0 <= k < |mid| ==> !OccursAt(mid + close, close, k)
    ensures SubstringBetween(Some(pre + open + mid + close + post), open, close) == Some(mid)
  {
    var s := pre + open + mid + close + post;
    var a := |pre|;
    var b := a + |open| + |mid|;
    assert s[..a + |open|] == pre + open;
    assert s[a + |open|..b + |close|] == mid + close;
    NoStartWithin(s, pre, open, 0);
    NoStartWithin(s, mid, close, a + |open|);
    SubstringBetweenAt(s, open, close, a, b);
    assert s[a + |open|..b] == mid;
  }

  /** Where t + pat sits in s at off, pat starts at off + |t| and at no
      position of t where it does not start in t + pat. */
  lemma NoStartWithin(s: string, t: string, pat: string, off: nat)
    requires off + |t| + |pat| <= |s| && s[off..off + |t| + |pat|] == t + pat
    requires forall k :: 0 <= k < |t| ==> !OccursAt(t + pat, pat, k)
    ensures OccursAt(s, pat, off + |t|)
    ensures forall j :: off <= j < off + |t| ==> !OccursAt(s, pat, j)
  {
    assert s[off + |t|..off + |t| + |pat|] == (t + pat)[|t|..];
    forall j | off <= j < off + |t|
      ensures !OccursAt(s, pat, j)
    {
      var k := j - off;
      var w := s[off..off + |t| + |pat|];
      assert forall m :: j <= m < j + |pat| ==> s[m] == w[m - off];
      assert s[j..j + |pat|] == w[k..k + |pat|];
      assert !OccursAt(t + pat, pat, k);
    }
  }

  /** substringBetween finds the markers where they first occur. */
  lemma SubstringBetweenAt(s: string, open: string, close: string, a: nat, b: nat)
    requires FirstFrom(s, open, 0, a) && FirstFrom(s, close, a + |open|, b)
    ensures a + |open| <= b <= |s|
    ensures SubstringBetween(Some(s), open, close) == Some(s[a + |open|..b])
  {
    var x := IndexOf(s, open, 0);
    assert x == Some(a) by {
      FirstFromUnique(s, open, 0, a, x.value);
    }
    var y := IndexOf(s, close, a + |open|);
    assert y == Some(b) by {
      FirstFromUnique(s, close, a + |open|, b, y.value);
    }
  }

  // ---------------------------------------------------------------------------
  // Splitting: String.split with a one-char separator
  // ---------------------------------------------------------------------------

  /** The longest prefix of s holding none of the stop chars. */
  function Before(s: string, stops: set<char>): (r: string)
    ensures r <= s
    ensures forall i :: 0 <= i < |r| ==> r[i] !in stops
    ensures |r| == |s| || s[|r|] in stops
    decreases |s|
  {
    if |s| == 0 || s[0] in stops then [] else [s[0]] + Before(s[1..], stops)
  }

  /** Before is pinned down by its three properties. */
  lemma BeforeUnique(s: string, stops: set<char>, r: string)
    requires r <= s
    requires forall i :: 0 <= i < |r| ==> r[i] !in stops
    requires |r| == |s| || s[|r|] in stops
    ensures r == Before(s, stops)
  {
  }

  /** A stop-free head passes through Before unchanged. */
  lemma BeforeAppend(a: string, b: string, stops: set<char>)
    requires forall i :: 0 <= i < |a| ==> a[i] !in stops
    ensures Before(a + b, stops) == a + Before(b, stops)
  {
    var r := a + Before(b, stops);
    assert |r| == |a + b| || (a + b)[|r|] == b[|Before(b, stops)|];
    BeforeUnique(a + b, stops, r);
  }

  /** Before stops at the first stop char after a stop-free head. */
  lemma BeforeStopsAt(a: string, b: string, stops: set<char>)
    requires forall i :: 0 <= i < |a| ==> a[i] !in stops
    requires b == [] || b[0] in stops
    ensures Before(a + b, stops) == a
  {
    assert |a| == |a + b| || (a + b)[|a|] == b[0];
    BeforeUnique(a + b, stops, a);
  }

  /** Cutting at one set of stops and then at another is cutting at their union. */
  lemma BeforeBefore(s: string, outer: set<char>, inner: set<char>)
    ensures Before(Before(s, outer), inner) == Before(s, outer + inner)
  {
    var a := Before(s, outer);
    var b := Before(a, inner);
    assert forall i :: 0 <= i < |b| ==> b[i] == a[i] && b[i] !in inner;
    if |b| < |a| {
      assert s[|b|] == a[|b|];
    }
    BeforeUnique(s, outer + inner, b);
  }

  /** The same string cut at every occurrence of sep (nothing dropped). */
  function SplitAll(s: string, sep: char): (parts: seq<string>)
    ensures |parts| >= 1
    ensures forall i :: 0 <= i < |parts| ==> sep !in parts[i]
    ensures parts[0] == Before(s, {sep})
    ensures Join(parts, sep) == s
    decreases |s|
  {
    var head := Before(s, {sep});
    if |head| == |s| then
      assert head == s;
      [s]
    else
      assert s == head + [sep] + s[|head| + 1..];
      [head] + SplitAll(s[|head| + 1..], sep)
  }

  /** String.join: the inverse of SplitAll. */
  function Join(parts: seq<string>, sep: char): string
    requires |parts| >= 1
  {
    if |parts| == 1 then parts[0] else parts[0] + [sep] + Join(parts[1..], sep)
  }

  /** xs without its trailing empty strings. */
  function DropTrailingEmpty(xs: seq<string>): (r: seq<string>)
    ensures r <= xs
    ensures forall k :: |r| <= k < |xs| ==> xs[k] == []
    ensures r == [] || r[|r| - 1] != []
    decreases |xs|
  {
    if |xs| > 0 && xs[|xs| - 1] == [] then DropTrailingEmpty(xs[..|xs| - 1]) else xs
  }

  /** String.split(sep) with limit 0: a string without sep splits into itself;
      otherwise every piece is kept except the trailing empty ones. */
  function JavaSplit(s: string, sep: char): (parts: seq<string>)
    ensures sep !in s ==> parts == [s]
    ensures sep in s ==> parts <= SplitAll(s, sep)
                         && (forall k :: |parts| <= k < |SplitAll(s, sep)| ==> SplitAll(s, sep)[k] == [])
                         && (parts == [] || parts[|parts| - 1] != [])
  {
    if sep !in s then [s] else DropTrailingEmpty(SplitAll(s, sep))
  }

  lemma SplitAllCons(a: string, sep: char, b: string)
    requires sep !in a
    ensures SplitAll(a + [sep] + b, sep) == [a] + SplitAll(b, sep)
  {
    var s := a + [sep] + b;
    BeforeStopsAt(a, [sep] + b, {sep});
    assert s == a + ([sep] + b);
    assert s[|a| + 1..] == b;
  }
}

=== FILE: key_scrape.dfy ===
/** The access-key scrape of getTrackUrlAccessKey: the JSON embedded in the
    track page between two script tags, and the key read from it. */
module KeyScrape {
  import opened Wrappers
  import opened JavaText

  /** The script tag that opens the embedded display-list JSON. */
  const DISPLAY_LIST_OPEN := "<script type=\"application/json\" id=\"displayList-data\">"

  /** The next script tag, which ends the embedded JSON. */
  const DISPLAY_LIST_CLOSE := "<script type=\"text/javascript\">"

  /** What a Jackson lookup chain such as readTree(json).get("url").asText()
      does with a JSON text. The JSON library is not modelled; the adapter only
      distinguishes these three ends:
      - FieldText: the chain completes with this text;
      - MalformedJson: readTree throws an IOException, which the adapter catches;
      - MissingField: a step dereferences null (readTree of empty content, a
        missing member or array element), which nothing catches. */
  datatype JsonField = FieldText(text: string) | MalformedJson | MissingField

  /** The trimmed text between the two markers of the page body, or null when
      the body is null or a marker is missing. */
  function SongJson(body: Option<string>): (json: Option<string>)
    ensures body.None? ==> json.None?
    ensures json.Some? ==> body.Some? && exists a :: OccursAt(body.value, DISPLAY_LIST_OPEN, a)
    ensures json.Some? ==> Trim(json.value) == json.value
  {
    var between := SubstringBetween(body, DISPLAY_LIST_OPEN, DISPLAY_LIST_CLOSE);
    assert between.Some? ==> Trim(Trim(between.value)) == Trim(between.value) by {
      if between.Some? {
        TrimIdempotent(between.value);
      }
    }
    TrimOpt(between)
  }

  /** getTrackUrlAccessKey after its request: scrape the JSON and read
      tracks[0].key. A malformed fragment gives the key ""; a missing fragment
      (readTree(null)) or a missing field throws. */
  function TrackUrlAccessKey(body: Option<string>, readKey: string -> JsonField): (key: Step<string>)
    ensures key.Normal? ==> SongJson(body).Some? && readKey(SongJson(body).value) != MissingField
    ensures key.Normal? && key.value != "" ==> readKey(SongJson(body).value) == FieldText(key.value)
    ensures SongJson(body).None? ==> key == Throws
    ensures SongJson(body).Some? && readKey(SongJson(body).value).FieldText? ==>
              key == Normal(readKey(SongJson(body).value).text)
    ensures SongJson(body).Some? && readKey(SongJson(body).value) == MalformedJson ==> key == Normal("")
    ensures SongJson(body).Some? && readKey(SongJson(body).value) == MissingField ==> key == Throws
  {
    match SongJson(body)
    case None => Throws
    case Some(songJson) =>
      match readKey(songJson)
      case FieldText(k) => Normal(k)
      case MalformedJson => Normal("")
      case MissingField => Throws
  }

  /** Round trip of the scrape: a page that embeds json between the two script
      tags yields json trimmed, provided the opening tag does not start earlier
      in the page and the closing tag does not start inside json. Other markup,
      including other script tags and closing tags, may appear anywhere. */
  lemma SongJsonOfPage(pre: string, json: string, post: string)
    requires forall k :: 0 <= k < |pre| ==> !OccursAt(pre + DISPLAY_LIST_OPEN, DISPLAY_LIST_OPEN, k)
    requires forall k :: 0 <= k < |json| ==> !OccursAt(json + DISPLAY_LIST_CLOSE, DISPLAY_LIST_CLOSE, k)
    ensures SongJson(Some(pre + DISPLAY_LIST_OPEN + json + DISPLAY_LIST_CLOSE + post)) == Some(Trim(json))
  {
    SubstringBetweenOf(pre, DISPLAY_LIST_OPEN, json, DISPLAY_LIST_CLOSE, post);
  }

  /** The key of a page that embeds the expected JSON is the key the JSON holds. */
  lemma KeyOfPage(pre: string, json: string, post: string, readKey: string -> JsonField, key: string)
    requires forall k :: 0 <= k < |pre| ==> !OccursAt(pre + DISPLAY_LIST_OPEN, DISPLAY_LIST_OPEN, k)
    requires forall k :: 0 <= k < |json| ==> !OccursAt(json + DISPLAY_LIST_CLOSE, DISPLAY_LIST_CLOSE, k)
    requires readKey(Trim(json)) == FieldText(key)
    ensures TrackUrlAccessKey(Some(pre + DISPLAY_LIST_OPEN + json + DISPLAY_LIST_CLOSE + post), readKey) == Normal(key)
  {
    SongJsonOfPage(pre, json, post);
  }

  /** Malformed embedded JSON degrades to the empty key. */
  lemma MalformedJsonGivesEmptyKey(pre: string, json: string, post: string, readKey: string -> JsonField)
    requires forall k :: 0 <= k < |pre| ==> !OccursAt(pre + DISPLAY_LIST_OPEN, DISPLAY_LIST_OPEN, k)
    requires forall k :: 0 <= k < |json| ==> !OccursAt(json + DISPLAY_LIST_CLOSE, DISPLAY_LIST_CLOSE, k)
    requires readKey(Trim(json)) == MalformedJson
    ensures TrackUrlAccessKey(Some(pre + DISPLAY_LIST_OPEN + json + DISPLAY_LIST_CLOSE + post), readKey) == Normal("")
  {
    SongJsonOfPage(pre, json, post);
  }

  /** A page without the opening script tag does not degrade to "": the null
      fragment reaches readTree and the exception escapes, whatever the parser. */
  lemma MissingOpenMarkerThrows(body: string, readKey: string -> JsonField)
    requires forall k :: !OccursAt(body, DISPLAY_LIST_OPEN, k)
    ensures SongJson(Some(body)) == None
    ensures TrackUrlAccessKey(Some(body), readKey) == Throws
  {
    if SubstringBetween(Some(body), DISPLAY_LIST_OPEN, DISPLAY_LIST_CLOSE).Some? {
      assert false;
    }
  }

  /** Likewise when no closing tag follows the opening one. */
  lemma MissingCloseMarkerThrows(body: string, readKey: string -> JsonField)
    requires forall k :: !OccursAt(body, DISPLAY_LIST_CLOSE, k)
    ensures SongJson(Some(body)) == None
    ensures TrackUrlAccessKey(Some(body), readKey) == Throws
  {
    if SubstringBetween(Some(body), DISPLAY_LIST_OPEN, DISPLAY_LIST_CLOSE).Some? {
      assert false;
    }
  }

  /** A null page body throws too. */
  lemma NullBodyThrows(readKey: string -> JsonField)
    ensures TrackUrlAccessKey(None, readKey) == Throws
  {
  }
}

=== FILE: media_ids.dfy ===
/** Identifier extraction: the hypem id is the path segment that follows
    "/track/" in a hypem track URL (getHypemMediaIdFromUrl and
    extractIdFromHypemUrl). */
module MediaIds {
  import opened Wrappers
  import opened JavaText
  import opened Uris

  const HYPEM_HOST := "hypem.com"
  const TRACK_PATH := "/track/"
  const HYPEM_TRACK_URL := "http://hypem.com/track/"

  /** An id ends at the next path separator, query or fragment. */
  const SEGMENT_STOPS: set<char> := {'/', '?', '#'}

  /** extractIdFromHypemUrl: the third element of getPath().split("/"), or ""
      when there are fewer than three. For a track URL this is the first
      segment of what follows the prefix. */
  function ExtractIdFromHypemUrl(hypemTrackUrl: string): (id: string)
    requires HYPEM_TRACK_URL <= hypemTrackUrl && UriSafe(hypemTrackUrl)
    ensures id == Before(hypemTrackUrl[|HYPEM_TRACK_URL|..], SEGMENT_STOPS)
  {
    ThirdPathPartIsFirstSegment(hypemTrackUrl);
    var pathParts := JavaSplit(HttpPath(hypemTrackUrl), '/');
    if |pathParts| >= 3 then pathParts[2] else ""
  }

  lemma ThirdPathPartIsFirstSegment(url: string)
    requires HYPEM_TRACK_URL <= url
    ensures HTTP_SCHEME_PREFIX <= url
    ensures var parts := JavaSplit(HttpPath(url), '/');
            (if |parts| >= 3 then parts[2] else "") == Before(url[|HYPEM_TRACK_URL|..], SEGMENT_STOPS)
  {
    var rest := url[|HYPEM_TRACK_URL|..];
    TrackUrlPath(url);
    ThirdPartOfTrackPath(Before(rest, PATH_STOPS));
    BeforeBefore(rest, PATH_STOPS, {'/'});
    assert PATH_STOPS + {'/'} == SEGMENT_STOPS;
  }

  /** The path of a track URL is "/track/" and what follows, up to the query. */
  lemma TrackUrlPath(url: string)
    requires HYPEM_TRACK_URL <= url
    ensures HTTP_SCHEME_PREFIX <= url
    ensures HttpPath(url) == TRACK_PATH + Before(url[|HYPEM_TRACK_URL|..], PATH_STOPS)
  {
    var rest := url[|HYPEM_TRACK_URL|..];
    assert url == HTTP_SCHEME_PREFIX + HYPEM_HOST + (TRACK_PATH + rest) by {
      assert HYPEM_TRACK_URL == HTTP_SCHEME_PREFIX + HYPEM_HOST + TRACK_PATH;
    }
    HttpComponents(HYPEM_HOST, TRACK_PATH + rest);
    BeforeAppend(TRACK_PATH, rest, PATH_STOPS);
  }

  /** split("/") of "/track/" + q has q's first segment as its third part. */
  lemma ThirdPartOfTrackPath(q: string)
    ensures var parts := JavaSplit(TRACK_PATH + q, '/');
            (if |parts| >= 3 then parts[2] else "") == Before(q, {'/'})
  {
    assert TRACK_PATH + q == [] + ['/'] + "track" + ['/'] + q;
    ThirdPart([], "track", q, '/');
  }

  /** split(sep) of a + sep + b + sep + q, for a non-empty b, has q's first
      segment as its third part. */
  lemma ThirdPart(a: string, b: string, q: string, sep: char)
    requires sep !in a && sep !in b && b != []
    ensures var parts := JavaSplit(a + [sep] + b + [sep] + q, sep);
            (if |parts| >= 3 then parts[2] else "") == Before(q, {sep})
  {
    var s := a + [sep] + b + [sep] + q;
    assert sep in s by {
      assert s[|a|] == sep;
    }
    SplitTwoHeads(a, b, q, sep);
    ThirdSurvivesDrop(SplitAll(s, sep));
  }

  lemma SplitTwoHeads(a: string, b: string, q: string, sep: char)
    requires sep !in a && sep !in b
    ensures SplitAll(a + [sep] + b + [sep] + q, sep) == [a, b] + SplitAll(q, sep)
  {
    var t := b + [sep] + q;
    SplitAllCons(b, sep, q);
    assert a + [sep] + b + [sep] + q == a + [sep] + (b + [sep] + q);
    SplitAllCons(a, sep, t);
    assert [a] + ([b] + SplitAll(q, sep)) == [a, b] + SplitAll(q, sep);
  }

  /** Dropping trailing empty parts never changes the third part when the
      second one is non-empty: it is kept, or it was empty. */
  lemma ThirdSurvivesDrop(xs: seq<string>)
    requires |xs| >= 3 && xs[1] != []
    ensures var r := DropTrailingEmpty(xs);
            (if |r| >= 3 then r[2] else "") == xs[2]
  {
  }

  /** The inputs this model covers: a trimmed input that starts with the track
      URL prefix is text URI.create accepts, with a path that needs no decoding. */
  predicate WithinUriModel(hypemTrackUrl: Option<string>) {
    StartsWith(TrimOpt(hypemTrackUrl), HYPEM_TRACK_URL) ==> UriSafe(TrimOpt(hypemTrackUrl).value)
  }

  /** getHypemMediaIdFromUrl: trim, check the prefix, extract; "" otherwise
      (null included). */
  function HypemMediaIdFromUrl(hypemTrackUrl: Option<string>): (id: string)
    requires WithinUriModel(hypemTrackUrl)
    ensures !StartsWith(TrimOpt(hypemTrackUrl), HYPEM_TRACK_URL) ==> id == ""
    ensures StartsWith(TrimOpt(hypemTrackUrl), HYPEM_TRACK_URL) ==>
              id == Before(Trim(hypemTrackUrl.value)[|HYPEM_TRACK_URL|..], SEGMENT_STOPS)
    ensures forall i :: 0 <= i < |id| ==> id[i] !in SEGMENT_STOPS
  {
    var trimmedUrl := TrimOpt(hypemTrackUrl);
    if StartsWith(trimmedUrl, HYPEM_TRACK_URL) then ExtractIdFromHypemUrl(trimmedUrl.value) else ""
  }

  /** Surrounding whitespace is irrelevant: the input is trimmed before matching. */
  lemma PaddingIsIgnored(ws1: string, u: string, ws2: string)
    requires AllTrimmable(ws1) && AllTrimmable(ws2)
    requires WithinUriModel(Some(u))
    ensures WithinUriModel(Some(ws1 + u + ws2))
            && HypemMediaIdFromUrl(Some(ws1 + u + ws2)) == HypemMediaIdFromUrl(Some(u))
  {
    TrimIgnoresPadding(ws1, u, ws2);
  }

  /** A track URL made of URI chars has nothing to trim. */
  lemma TrackUrlIsTrimmed(url: string)
    requires HYPEM_TRACK_URL <= url && UriSafe(url)
    ensures Trim(url) == url && WithinUriModel(Some(url))
  {
    assert url[0] == HYPEM_TRACK_URL[0] == 'h';
    assert IsUriChar(url[|url| - 1]);
    TrimOfClean(url);
  }

  /** Only the first segment after the prefix counts: later segments, the query
      and the fragment are ignored. */
  lemma LaterPartsIgnored(id: string, tail: string)
    requires forall i :: 0 <= i < |id| ==> id[i] !in SEGMENT_STOPS
    requires tail == [] || tail[0] in SEGMENT_STOPS
    requires UriSafe(HYPEM_TRACK_URL + id + tail)
    ensures WithinUriModel(Some(HYPEM_TRACK_URL + id + tail))
            && HypemMediaIdFromUrl(Some(HYPEM_TRACK_URL + id + tail)) == id
  {
    var url := HYPEM_TRACK_URL + id + tail;
    assert url[|HYPEM_TRACK_URL|..] == id + tail;
    BeforeStopsAt(id, tail, SEGMENT_STOPS);
    IdOfTrackUrl(url);
  }

  /** A track URL with nothing to trim yields its first segment after the prefix. */
  lemma IdOfTrackUrl(url: string)
    requires HYPEM_TRACK_URL <= url && UriSafe(url)
    ensures WithinUriModel(Some(url))
            && HypemMediaIdFromUrl(Some(url)) == Before(url[|HYPEM_TRACK_URL|..], SEGMENT_STOPS)
  {
    TrackUrlIsTrimmed(url);
  }

  /** Round trip: the id of the track URL built from an id is that id. */
  lemma TrackUrlRoundTrip(id: string)
    requires forall i :: 0 <= i < |id| ==> IsUriChar(id[i]) && id[i] !in SEGMENT_STOPS
    ensures WithinUriModel(Some(HYPEM_TRACK_URL + id))
            && HypemMediaIdFromUrl(Some(HYPEM_TRACK_URL + id)) == id
  {
    var url := HYPEM_TRACK_URL + id;
    TrackUrlIsUriSafe(id);
    assert url[|HYPEM_TRACK_URL|..] == id;
    BeforeStopsAt(id, [], SEGMENT_STOPS);
    assert id + [] == id;
    IdOfTrackUrl(url);
  }

  lemma TrackUrlIsUriSafe(id: string)
    requires forall i :: 0 <= i < |id| ==> IsUriChar(id[i]) && id[i] != '#'
    ensures UriSafe(HYPEM_TRACK_URL + id)
  {
    var url := HYPEM_TRACK_URL + id;
    assert forall i :: 0 <= i < |url| ==> IsUriChar(url[i]) && url[i] != '#' by {
      forall i | 0 <= i < |url|
        ensures IsUriChar(url[i]) && url[i] != '#'
      {
        if i < |HYPEM_TRACK_URL| {
          assert url[i] == HYPEM_TRACK_URL[i];
        } else {
          assert url[i] == id[i - |HYPEM_TRACK_URL|];
        }
      }
    }
  }

  /** The example of the documentation: http://hypem.com/track/2c87x gives 2c87x. */
  lemma DocumentedExample(url: string, id: string)
    requires url == "http://hypem.com/track/2c87x" && id == "2c87x"
    ensures WithinUriModel(Some(url)) && HypemMediaIdFromUrl(Some(url)) == id
  {
    assert url == HYPEM_TRACK_URL + id;
    assert forall i :: 0 <= i < |id| ==> IsUriChar(id[i]) && id[i] !in SEGMENT_STOPS;
    TrackUrlRoundTrip(id);
  }

  /** The bare prefix and an empty first segment both give "". */
  lemma EmptySegmentGivesEmpty(tail: string)
    requires tail == [] || tail[0] in SEGMENT_STOPS
    requires UriSafe(HYPEM_TRACK_URL + tail)
    ensures WithinUriModel(Some(HYPEM_TRACK_URL + tail))
            && HypemMediaIdFromUrl(Some(HYPEM_TRACK_URL + tail)) == ""
  {
    assert HYPEM_TRACK_URL + tail == HYPEM_TRACK_URL + [] + tail;
    LaterPartsIgnored([], tail);
  }

  /** Null, and anything that does not start with the prefix once trimmed, gives "". */
  lemma ForeignInputGivesEmpty(u: Option<string>)
    requires !StartsWith(TrimOpt(u), HYPEM_TRACK_URL)
    ensures WithinUriModel(u) && HypemMediaIdFromUrl(u) == ""
  {
  }
}

=== FILE: resolver.dfy ===
/** The resolution pipeline of getFileUriByHypemId: the go redirect first, and
    when it does not land on SoundCloud, the key-gated serve endpoint. Every
    collaborator the adapter calls (the HTTP client, URI.create, the JSON
    library) is a parameter; the model records which requests go out. */
module Resolver {
  import opened Wrappers
  import opened JavaText
  import opened Uris
  import opened MediaIds
  import opened HostClassifier
  import opened KeyScrape

  const HYPEM_GO_URL := "http://hypem.com/go/sc/"
  const HYPEM_SERVE_URL := "http://hypem.com/serve/source/"
  const HTTP_OK := 200

  /** A request the adapter sends: the HEAD to the go endpoint, which carries
      no credential, or a GET that carries the session cookie. */
  datatype Request = Head(url: string) | CookieGet(url: string)

  /** How an exchange ends. The adapter installs an error handler that treats
      no status as an error, so every answer is a Reply. TransportFailure is
      any exception the exchange raises, which nothing in the adapter catches:
      an I/O failure of the client, and also, for the HEAD, a Location header
      that Spring's getLocation() cannot parse as a URI, and, for a GET on
      Spring versions before 6, a status code HttpStatus does not list. */
  datatype Exchange<T> = Reply(value: T) | TransportFailure

  /** A GET response: the status code and the body (null when empty). */
  datatype Response = Response(status: int, body: Option<string>)

  /** The collaborators, as functions of the request text.
      - createUri: URI.create, None when it throws IllegalArgumentException;
      - head: a HEAD exchange, answering the Location header (null if absent);
      - get: a GET exchange with the session cookie;
      - readKey: readTree(json).get("tracks").get(0).get("key").asText();
      - readUrl: readTree(json).get("url").asText(). */
  datatype Upstream = Upstream(
    createUri: string -> Option<Uri>,
    head: string -> Exchange<Option<Uri>>,
    get: string -> Exchange<Response>,
    readKey: string -> JsonField,
    readUrl: string -> JsonField)

  /** The end of one resolution: a URI, null, or an escaping exception. */
  datatype Outcome = Resolved(uri: Uri) | Unresolved | Crashed

  /** An outcome and the requests sent on the way, in order. */
  datatype Resolution = Resolution(outcome: Outcome, requests: seq<Request>)

  /** A step of the pipeline and the requests it sent. */
  datatype Traced<T> = Traced(step: Step<T>, requests: seq<Request>)

  function GoUrl(id: string): string {
    HYPEM_GO_URL + id
  }

  function TrackUrl(id: string): string {
    HYPEM_TRACK_URL + id
  }

  function ServeUrl(id: string, key: string): string {
    HYPEM_SERVE_URL + id + "/" + key
  }

  /** getHostingGoUrl: the Location header of HEAD go/sc/<id>. The request is
      sent once URI.create accepts its text, and a location comes only from its
      answer. */
  function HostingGoUrl(id: string, up: Upstream): (r: Traced<Option<Uri>>)
    ensures r.requests == (if up.createUri(GoUrl(id)).Some? then [Head(GoUrl(id))] else [])
    ensures r.step.Normal? <==> up.createUri(GoUrl(id)).Some? && up.head(GoUrl(id)).Reply?
    ensures r.step.Normal? ==> up.head(GoUrl(id)) == Reply(r.step.value)
  {
    if up.createUri(GoUrl(id)).None? then Traced(Throws, [])
    else
      match up.head(GoUrl(id))
      case TransportFailure => Traced(Throws, [Head(GoUrl(id))])
      case Reply(location) => Traced(Normal(location), [Head(GoUrl(id))])
  }

  /** getTrackUrlAccessKey: GET track/<id> with the cookie, then scrape the key
      from the body. The status of the response is not looked at. The request
      is sent once URI.create accepts its text, and a key is read only from
      an answered request. */
  function TrackPageKey(id: string, up: Upstream): (r: Traced<string>)
    ensures r.requests == (if up.createUri(TrackUrl(id)).Some? then [CookieGet(TrackUrl(id))] else [])
    ensures r.step.Normal? ==> up.createUri(TrackUrl(id)).Some? && up.get(TrackUrl(id)).Reply?
    ensures up.createUri(TrackUrl(id)).Some? && up.get(TrackUrl(id)).Reply? ==>
              r.step == TrackUrlAccessKey(up.get(TrackUrl(id)).value.body, up.readKey)
  {
    if up.createUri(TrackUrl(id)).None? then Traced(Throws, [])
    else
      match up.get(TrackUrl(id))
      case TransportFailure => Traced(Throws, [CookieGet(TrackUrl(id))])
      case Reply(page) => Traced(TrackUrlAccessKey(page.body, up.readKey), [CookieGet(TrackUrl(id))])
  }

  /** The second half of getHostingServeJsonBody, once the key is known: GET
      serve/source/<id>/<key> with the cookie; the body when the status is
      200, "" otherwise. It throws exactly when URI.create rejects the URL or
      the exchange fails. */
  function ServeWithKey(id: string, key: string, up: Upstream): (r: Traced<Option<string>>)
    ensures r.requests == (if up.createUri(ServeUrl(id, key)).Some? then [CookieGet(ServeUrl(id, key))] else [])
    ensures r.step.Throws? <==> up.createUri(ServeUrl(id, key)).None? || up.get(ServeUrl(id, key)).TransportFailure?
    ensures r.step.Normal? && up.get(ServeUrl(id, key)).value.status == HTTP_OK ==>
              r.step.value == up.get(ServeUrl(id, key)).value.body
    ensures r.step.Normal? && up.get(ServeUrl(id, key)).value.status != HTTP_OK ==> r.step.value == Some("")
    ensures r.step.Normal? && !IsBlank(r.step.value) ==>
              up.get(ServeUrl(id, key)) == Reply(Response(HTTP_OK, r.step.value))
  {
    if up.createUri(ServeUrl(id, key)).None? then Traced(Throws, [])
    else
      match up.get(ServeUrl(id, key))
      case TransportFailure => Traced(Throws, [CookieGet(ServeUrl(id, key))])
      case Reply(mp3Response) =>
        Traced(Normal(if mp3Response.status == HTTP_OK then mp3Response.body else Some("")),
               [CookieGet(ServeUrl(id, key))])
  }

  /** getHostingServeJsonBody: fetch the key, then request the serve endpoint
      with it, whatever the key (the empty one included). It yields a body
      exactly when the serve request was answered: the answer's body for
      status 200, "" for any other status. */
  function HostingServeJsonBody(id: string, up: Upstream): (r: Traced<Option<string>>)
    ensures ServeRequestsOf(id, up, r.requests)
    ensures up.createUri(TrackUrl(id)).Some? ==> r.requests != [] && r.requests[0] == CookieGet(TrackUrl(id))
    ensures r.step.Normal? <==> ServeReplied(id, up)
    ensures ServeReplied(id, up) && ServeReply(id, up).status == HTTP_OK ==> r.step == Normal(ServeReply(id, up).body)
    ensures ServeReplied(id, up) && ServeReply(id, up).status != HTTP_OK ==> r.step == Normal(Some(""))
    ensures r.step.Normal? && !IsBlank(r.step.value) ==> ServeAnswered(id, up, r.step.value.value)
  {
    var key := TrackPageKey(id, up);
    match key.step
    case Throws => Traced(Throws, key.requests)
    case Normal(k) =>
      var serve := ServeWithKey(id, k, up);
      Traced(serve.step, key.requests + serve.requests)
  }

  /** extractUrlField: the "url" member as a URI; null when the JSON is
      malformed (the IOException is caught); other failures escape. */
  function ExtractUrlField(json: string, up: Upstream): (r: Step<Option<Uri>>)
    ensures r.Throws? <==> up.readUrl(json) == MissingField
                           || (up.readUrl(json).FieldText? && up.createUri(up.readUrl(json).text).None?)
    ensures r == Normal(None) <==> up.readUrl(json) == MalformedJson
    ensures r.Normal? && r.value.Some? ==>
              up.readUrl(json).FieldText? && up.createUri(up.readUrl(json).text) == r.value
  {
    match up.readUrl(json)
    case FieldText(url) =>
      (match up.createUri(url)
       case None => Throws
       case Some(uri) => Normal(Some(uri)))
    case MalformedJson => Normal(None)
    case MissingField => Throws
  }

  /** No request is sent twice. */
  predicate NoRepeats(requests: seq<Request>) {
    forall i, j :: 0 <= i < j < |requests| ==> requests[i] != requests[j]
  }

  /** The serve request went out with the key read from the track page and
      was answered 200 with body. */
  predicate ServeAnswered(id: string, up: Upstream, body: string) {
    var key := TrackPageKey(id, up).step;
    && key.Normal?
    && up.get(ServeUrl(id, key.value)).Reply?
    && up.get(ServeUrl(id, key.value)).value == Response(HTTP_OK, Some(body))
  }

  /** The serve request went out, with the key read from the track page, and
      was answered. */
  predicate ServeReplied(id: string, up: Upstream) {
    var key := TrackPageKey(id, up).step;
    && key.Normal?
    && up.createUri(ServeUrl(id, key.value)).Some?
    && up.get(ServeUrl(id, key.value)).Reply?
  }

  /** The answer to the serve request. */
  function ServeReply(id: string, up: Upstream): Response
    requires ServeReplied(id, up)
  {
    up.get(ServeUrl(id, TrackPageKey(id, up).step.value)).value
  }

  /** The serve path produced uri: the serve request answered 200 with a
      non-blank body whose "url" member is the text of uri. */
  predicate ServedAs(id: string, up: Upstream, uri: Uri) {
    && ServeReplied(id, up)
    && var mp3Response := ServeReply(id, up);
    && mp3Response.status == HTTP_OK
    && !IsBlank(mp3Response.body)
    && up.readUrl(mp3Response.body.value).FieldText?
    && up.createUri(up.readUrl(mp3Response.body.value).text) == Some(uri)
  }

  /** The else branch of getFileUriByHypemId: the serve body, and when it is
      not blank the "url" member it holds. It requests the track page and then
      the serve endpoint with the key read from it, in that order, and it
      resolves to a URI exactly when the serve answer named that URI. After a
      200 answer with a non-blank body, malformed JSON gives null, while a
      missing "url" member or one URI.create rejects escapes. */
  function ServeFallback(id: string, up: Upstream): (r: Resolution)
    ensures ServeRequestsOf(id, up, r.requests)
    ensures up.createUri(TrackUrl(id)).Some? ==> r.requests != [] && r.requests[0] == CookieGet(TrackUrl(id))
    ensures r.outcome.Resolved? ==> ServedAs(id, up, r.outcome.uri)
    ensures forall uri :: ServedAs(id, up, uri) ==> r.outcome == Resolved(uri)
    ensures !ServeReplied(id, up) ==> r.outcome == Crashed
    ensures ServeReplied(id, up) && (ServeReply(id, up).status != HTTP_OK || IsBlank(ServeReply(id, up).body)) ==>
              r.outcome == Unresolved
    ensures ServeReplied(id, up) && ServeReply(id, up).status == HTTP_OK && !IsBlank(ServeReply(id, up).body) ==>
              var field := up.readUrl(ServeReply(id, up).body.value);
              && (field == MalformedJson ==> r.outcome == Unresolved)
              && (field == MissingField || (field.FieldText? && up.createUri(field.text).None?) ==>
                    r.outcome == Crashed)
  {
    var serve := HostingServeJsonBody(id, up);
    match serve.step
    case Throws => Resolution(Crashed, serve.requests)
    case Normal(jsonBody) =>
      if IsBlank(jsonBody) then Resolution(Unresolved, serve.requests)
      else
        match ExtractUrlField(jsonBody.value, up)
        case Throws => Resolution(Crashed, serve.requests)
        case Normal(None) => Resolution(Unresolved, serve.requests)
        case Normal(Some(uri)) => Resolution(Resolved(uri), serve.requests)
  }

  /** The requests a fallback sends: none when URI.create rejects the track
      URL; the track page alone when no key comes from it or URI.create
      rejects the serve URL; otherwise the track page and then the serve
      endpoint with the key read from it. */
  predicate ServeRequestsOf(id: string, up: Upstream, requests: seq<Request>) {
    var key := TrackPageKey(id, up).step;
    if up.createUri(TrackUrl(id)).None? then requests == []
    else if key.Throws? || up.createUri(ServeUrl(id, key.value)).None? then requests == [CookieGet(TrackUrl(id))]
    else requests == [CookieGet(TrackUrl(id)), CookieGet(ServeUrl(id, key.value))]
  }

  /** getFileUriByHypemId. */
  function FileUriByHypemId(hypemId: Option<string>, up: Upstream): (r: Resolution)
    ensures IsBlank(hypemId) ==> r == Resolution(Unresolved, [])
    ensures !IsBlank(hypemId) && up.createUri(GoUrl(hypemId.value)).None? ==> r == Resolution(Crashed, [])
    ensures !IsBlank(hypemId) && up.createUri(GoUrl(hypemId.value)).Some? ==>
              |r.requests| > 0 && r.requests[0] == Head(GoUrl(hypemId.value))
    ensures |r.requests| <= 3 && NoRepeats(r.requests)
    ensures r.outcome.Resolved? ==>
              !IsBlank(hypemId)
              && ((up.head(GoUrl(hypemId.value)) == Reply(Some(r.outcome.uri)) && IsSoundcloudUrl(Some(r.outcome.uri)))
                  || ServedAs(hypemId.value, up, r.outcome.uri))
  {
    if IsBlank(hypemId) then Resolution(Unresolved, [])
    else
      var id := hypemId.value;
      var go := HostingGoUrl(id, up);
      match go.step
      case Throws => Resolution(Crashed, go.requests)
      case Normal(goUrl) =>
        if IsSoundcloudUrl(goUrl) then Resolution(Resolved(goUrl.value), go.requests)
        else
          var fallback := ServeFallback(id, up);
          FallbackRequestsDistinct(id, up, go.requests, fallback.requests);
          Resolution(fallback.outcome, go.requests + fallback.requests)
  }

  /** The go, track-page and serve URLs of one id never coincide. */
  lemma EndpointsDiffer(id: string, key: string)
    ensures GoUrl(id) != TrackUrl(id) && GoUrl(id) != ServeUrl(id, key)
    ensures TrackUrl(id) != ServeUrl(id, key)
    ensures Head(GoUrl(id)) != CookieGet(TrackUrl(id))
  {
    assert GoUrl(id)[17] == 'g' && TrackUrl(id)[17] == 't' && ServeUrl(id, key)[17] == 's';
  }

  /** The go request followed by the requests of a fallback sends nothing
      twice. */
  lemma FallbackRequestsDistinct(id: string, up: Upstream, go: seq<Request>, serve: seq<Request>)
    requires go == [] || go == [Head(GoUrl(id))]
    requires ServeRequestsOf(id, up, serve)
    ensures |go + serve| <= 3 && NoRepeats(go + serve)
  {
    var key := TrackPageKey(id, up).step;
    var k := if key.Normal? then key.value else "";
    EndpointsDiffer(id, k);
    InOrderNoRepeats(Head(GoUrl(id)), CookieGet(TrackUrl(id)), CookieGet(ServeUrl(id, k)), go, serve);
  }

  lemma InOrderNoRepeats(a: Request, b: Request, c: Request, first: seq<Request>, rest: seq<Request>)
    requires a != b && a != c && b != c
    requires first == [] || first == [a]
    requires rest == [] || rest == [b] || rest == [b, c]
    ensures NoRepeats(first + rest)
  {
  }

  // ---------------------------------------------------------------------------
  // The decision tree, branch by branch
  // ---------------------------------------------------------------------------

  /** The go exchange of a non-blank id was sent and answered with location. */
  predicate GoAnswered(id: string, up: Upstream, location: Option<Uri>) {
    && !IsBlank(Some(id))
    && up.createUri(GoUrl(id)).Some?
    && up.head(GoUrl(id)) == Reply(location)
  }

  /** Fast path: a SoundCloud location is returned as it is, after the go
      request alone. */
  lemma FastPath(id: string, up: Upstream, location: Option<Uri>)
    requires GoAnswered(id, up, location) && IsSoundcloudUrl(location)
    ensures FileUriByHypemId(Some(id), up) == Resolution(Resolved(location.value), [Head(GoUrl(id))])
  {
  }

  /** A go location that fails the classifier hands the id to the fallback,
      after the go request. */
  lemma GoesToFallback(id: string, up: Upstream, location: Option<Uri>)
    requires GoAnswered(id, up, location) && !IsSoundcloudUrl(location)
    ensures var fallback := ServeFallback(id, up);
            FileUriByHypemId(Some(id), up) == Resolution(fallback.outcome, [Head(GoUrl(id))] + fallback.requests)
  {
    assert HostingGoUrl(id, up) == Traced(Normal(location), [Head(GoUrl(id))]);
  }

  /** The track page is requested exactly when the go location fails the
      classifier. */
  lemma TrackPageIffNotSoundcloud(id: string, up: Upstream, location: Option<Uri>)
    requires GoAnswered(id, up, location) && up.createUri(TrackUrl(id)).Some?
    ensures var r := FileUriByHypemId(Some(id), up);
            CookieGet(TrackUrl(id)) in r.requests <==> !IsSoundcloudUrl(location)
  {
    var r := FileUriByHypemId(Some(id), up);
    if !IsSoundcloudUrl(location) {
      var fallback := ServeFallback(id, up).requests;
      assert r.requests == [Head(GoUrl(id))] + fallback;
      assert r.requests[1] == fallback[0];
    } else {
      assert r.requests == [Head(GoUrl(id))];
    }
  }

  /** The fallback reached the track page, which answered page, from which
      key was read. */
  predicate KeyRead(id: string, up: Upstream, page: Response, key: string) {
    && up.createUri(TrackUrl(id)).Some?
    && up.get(TrackUrl(id)) == Reply(page)
    && TrackUrlAccessKey(page.body, up.readKey) == Normal(key)
  }

  /** Once a key is read the serve request follows, whatever the key. */
  lemma ServeAlwaysRequested(id: string, up: Upstream, location: Option<Uri>, page: Response, key: string)
    requires GoAnswered(id, up, location) && !IsSoundcloudUrl(location)
    requires KeyRead(id, up, page, key) && up.createUri(ServeUrl(id, key)).Some?
    ensures FileUriByHypemId(Some(id), up).requests
         == [Head(GoUrl(id)), CookieGet(TrackUrl(id)), CookieGet(ServeUrl(id, key))]
  {
    GoesToFallback(id, up, location);
    assert TrackPageKey(id, up).step == Normal(key);
    assert ServeFallback(id, up).requests == [CookieGet(TrackUrl(id)), CookieGet(ServeUrl(id, key))];
  }

  /** Malformed embedded JSON does not stop the pipeline: the serve endpoint is
      called with the empty key. */
  lemma EmptyKeyStillServed(id: string, up: Upstream, location: Option<Uri>, page: Response)
    requires GoAnswered(id, up, location) && !IsSoundcloudUrl(location)
    requires up.createUri(TrackUrl(id)).Some? && up.get(TrackUrl(id)) == Reply(page)
    requires SongJson(page.body).Some? && up.readKey(SongJson(page.body).value) == MalformedJson
    requires up.createUri(HYPEM_SERVE_URL + id + "/").Some?
    ensures var r := FileUriByHypemId(Some(id), up);
            |r.requests| == 3 && r.requests[2] == CookieGet(HYPEM_SERVE_URL + id + "/")
  {
    assert ServeUrl(id, "") == HYPEM_SERVE_URL + id + "/";
    ServeAlwaysRequested(id, up, location, page, "");
  }

  /** What the serve answer makes of the fallback: null unless it is 200 with a
      non-blank body; then the "url" member as a URI, an escaping exception
      when URI.create rejects its text, null for malformed JSON, an escaping
      exception for a missing member. */
  lemma ServeAnswerDecides(id: string, up: Upstream, location: Option<Uri>, page: Response, key: string,
                           mp3Response: Response)
    requires GoAnswered(id, up, location) && !IsSoundcloudUrl(location)
    requires KeyRead(id, up, page, key) && up.createUri(ServeUrl(id, key)).Some?
    requires up.get(ServeUrl(id, key)) == Reply(mp3Response)
    ensures var outcome := FileUriByHypemId(Some(id), up).outcome;
            && (mp3Response.status != HTTP_OK || IsBlank(mp3Response.body) ==> outcome == Unresolved)
            && (mp3Response.status == HTTP_OK && !IsBlank(mp3Response.body) ==>
                  var field := up.readUrl(mp3Response.body.value);
                  && (field.FieldText? && up.createUri(field.text).Some? ==>
                        outcome == Resolved(up.createUri(field.text).value))
                  && (field.FieldText? && up.createUri(field.text).None? ==> outcome == Crashed)
                  && (field == MalformedJson ==> outcome == Unresolved)
                  && (field == MissingField ==> outcome == Crashed))
  {
  }

  // ---------------------------------------------------------------------------
  // Exceptions
  // ---------------------------------------------------------------------------

  /** Collaborators that never fail: every URI text is accepted, every exchange
      is answered, and the JSON lookups never meet a missing member. */
  ghost predicate Cooperative(up: Upstream) {
    && (forall s :: up.createUri(s).Some?)
    && (forall s :: up.head(s).Reply?)
    && (forall s :: up.get(s).Reply?)
    && (forall s :: up.readKey(s) != MissingField)
    && (forall s :: up.readUrl(s) != MissingField)
  }

  /** With cooperative collaborators and a track page that holds the embedded
      JSON, the resolution ends in a URI or null, never in an exception. */
  lemma NoCrashWhenCooperative(id: Option<string>, up: Upstream)
    requires Cooperative(up)
    requires !IsBlank(id) ==> SongJson(up.get(TrackUrl(id.value)).value.body).Some?
    ensures FileUriByHypemId(id, up).outcome != Crashed
  {
    if !IsBlank(id) {
      var i := id.value;
      assert HostingGoUrl(i, up).step.Normal?;
      assert TrackPageKey(i, up).step.Normal?;
      var key := TrackPageKey(i, up).step.value;
      assert ServeWithKey(i, key, up).step.Normal?;
      assert HostingServeJsonBody(i, up).step.Normal?;
      assert ServeFallback(i, up).outcome != Crashed;
    }
  }

  /** The source does not guard the scrape: when the fallback meets a track
      page without the opening script tag, the exception escapes, after the go
      and track-page requests only. */
  lemma PageWithoutMarkerCrashes(id: string, up: Upstream, location: Option<Uri>, page: Response)
    requires GoAnswered(id, up, location) && !IsSoundcloudUrl(location)
    requires up.createUri(TrackUrl(id)).Some? && up.get(TrackUrl(id)) == Reply(page)
    requires page.body.Some? && forall k :: !OccursAt(page.body.value, DISPLAY_LIST_OPEN, k)
    ensures FileUriByHypemId(Some(id), up) == Resolution(Crashed, [Head(GoUrl(id)), CookieGet(TrackUrl(id))])
  {
    MissingOpenMarkerThrows(page.body.value, up.readKey);
  }

  /** A transport failure of the go request escapes as well. */
  lemma GoTransportFailureCrashes(id: string, up: Upstream)
    requires !IsBlank(Some(id)) && up.createUri(GoUrl(id)).Some? && up.head(GoUrl(id)) == TransportFailure
    ensures FileUriByHypemId(Some(id), up) == Resolution(Crashed, [Head(GoUrl(id))])
  {
  }

  // ---------------------------------------------------------------------------
  // Worked examples
  // ---------------------------------------------------------------------------

  /** Id 2c87x redirected to http://soundcloud.com/artist/track resolves to that
      URI unchanged, after the go request alone. */
  lemma SoundcloudRedirectExample(id: string, host: string, tail: string, up: Upstream)
    requires id == "2c87x" && host == "soundcloud.com" && tail == "/artist/track"
    requires up.createUri(GoUrl(id)).Some?
    requires up.head(GoUrl(id)) == Reply(ParseHttpUri(HTTP_SCHEME_PREFIX + host + tail))
    ensures var r := FileUriByHypemId(Some(id), up);
            && r.outcome.Resolved? && r.outcome.uri.text == HTTP_SCHEME_PREFIX + host + tail
            && r.requests == [Head(GoUrl(id))]
  {
    SoundcloudTrackAccepted(host, tail);
    assert !IsJavaWhitespace(id[0]);
    FastPath(id, up, ParseHttpUri(HTTP_SCHEME_PREFIX + host + tail));
  }

  /** Id zz999 redirected to http://notfound.example.com/not/found falls back;
      with key k9 read from the page and a serve answer whose "url" member is
      http://cdn.example.com/zz999.mp3, it resolves to that URI after three
      requests. */
  lemma ServeFallbackExample(id: string, key: string, goHost: string, goTail: string,
                             mp3Host: string, mp3Tail: string, up: Upstream,
                             page: Response, mp3Response: Response)
    requires id == "zz999" && key == "k9"
    requires goHost == "notfound.example.com" && goTail == "/not/found"
    requires mp3Host == "cdn.example.com" && mp3Tail == "/zz999.mp3"
    requires up.createUri(GoUrl(id)).Some?
    requires up.head(GoUrl(id)) == Reply(ParseHttpUri(HTTP_SCHEME_PREFIX + goHost + goTail))
    requires KeyRead(id, up, page, key) && up.createUri(ServeUrl(id, key)).Some?
    requires up.get(ServeUrl(id, key)) == Reply(mp3Response)
    requires mp3Response.status == HTTP_OK && !IsBlank(mp3Response.body)
    requires up.readUrl(mp3Response.body.value) == FieldText(HTTP_SCHEME_PREFIX + mp3Host + mp3Tail)
    requires up.createUri(HTTP_SCHEME_PREFIX + mp3Host + mp3Tail) == ParseHttpUri(HTTP_SCHEME_PREFIX + mp3Host + mp3Tail)
    ensures var r := FileUriByHypemId(Some(id), up);
            && r.outcome.Resolved? && r.outcome.uri.text == HTTP_SCHEME_PREFIX + mp3Host + mp3Tail
            && r.requests == [Head(GoUrl(id)), CookieGet(TrackUrl(id)), CookieGet(ServeUrl(id, key))]
  {
    var location := HTTP_SCHEME_PREFIX + goHost + goTail;
    OtherHostExampleRejected(goHost, goTail);
    CdnExampleParses(mp3Host, mp3Tail);
    assert !IsJavaWhitespace(id[0]);
    ServeAlwaysRequested(id, up, ParseHttpUri(location), page, key);
    ServeAnswerDecides(id, up, ParseHttpUri(location), page, key, mp3Response);
  }

  lemma CdnExampleParses(host: string, tail: string)
    requires host == "cdn.example.com" && tail == "/zz999.mp3"
    ensures ParseHttpUri(HTTP_SCHEME_PREFIX + host + tail).Some?
  {
    assert IsHostChars(host) && IsAsciiAlpha(host[0]);
    assert forall i :: 0 <= i < |tail| ==> IsUriChar(tail[i]) && tail[i] != '#';
    UriSafeOfParts(host, tail);
    ParseHttpUriOf(host, tail);
  }
}

=== FILE: uris.dfy ===
/** The subset of java.net.URI the adapter depends on: the host and the raw path
    of hierarchical http URIs, without percent-decoding. */
module Uris {
  import opened Wrappers
  import opened JavaText

  /** A parsed URI as the adapter reads it: its text, getHost() and getPath(),
      either of which may be null. */
  datatype Uri = Uri(text: string, host: Option<string>, path: Option<string>)

  const HTTP_SCHEME_PREFIX := "http://"

  /** The authority ends at the first of these. */
  const AUTHORITY_STOPS: set<char> := {'/', '?', '#'}

  /** The path ends at the query or the fragment. */
  const PATH_STOPS: set<char> := {'?', '#'}

  predicate IsAsciiAlpha(c: char) {
    ('a' <= c <= 'z') || ('A' <= c <= 'Z')
  }

  predicate IsAsciiDigit(c: char) {
    '0' <= c <= '9'
  }

  predicate IsAsciiAlphaNum(c: char) {
    IsAsciiAlpha(c) || IsAsciiDigit(c)
  }

  /** The chars java.net.URI accepts unescaped in the path, query and fragment:
      the unreserved and reserved chars of RFC 2396 (brackets excluded) and '#'. */
  predicate IsUriChar(c: char) {
    || IsAsciiAlphaNum(c)
    || c == '-' || c == '_' || c == '.' || c == '!' || c == '~' || c == '*' || c == '\''
    || c == '(' || c == ')' || c == ';' || c == '/' || c == '?' || c == ':' || c == '@'
    || c == '&' || c == '=' || c == '+' || c == '$' || c == ',' || c == '#'
  }

  /** Text URI.create accepts and whose getPath() needs no decoding: only
      URI chars, and at most one '#' (the fragment mark). */
  predicate UriSafe(s: string) {
    && (forall i :: 0 <= i < |s| ==> IsUriChar(s[i]))
    && (forall i, j :: 0 <= i < j < |s| && s[i] == '#' ==> s[j] != '#')
  }

  /** The chars of a host name. */
  predicate IsHostChar(c: char) {
    IsAsciiAlphaNum(c) || c == '.' || c == '-'
  }

  predicate IsHostChars(h: string) {
    forall i :: 0 <= i < |h| ==> IsHostChar(h[i])
  }

  predicate HasLetter(h: string) {
    exists i :: 0 <= i < |h| && IsAsciiAlpha(h[i])
  }

  /** The dot at i is the last one before the final char of h. */
  predicate LastInnerDot(h: string, i: nat) {
    forall j :: i < j < |h| - 1 ==> h[j] != '.'
  }

  /** The hostname rule of section 3.2.2 of RFC 2396 as java.net.URI applies
      it: labels of letters, digits and dashes separated by single dots, each
      label starting and ending with a letter or digit, an optional trailing
      dot, and, when there are several labels, a last label that starts with a
      letter. */
  predicate IsHostName(h: string): (ok: bool)
    ensures ok ==> |h| > 0 && h[0] != '.' && h[0] != '-' && h[|h| - 1] != '-'
    ensures ok ==> forall i :: 0 <= i < |h| - 1 && h[i] == '.' && LastInnerDot(h, i) ==> IsAsciiAlpha(h[i + 1])
  {
    && |h| > 0
    && IsHostChars(h)
    && IsAsciiAlphaNum(h[0])
    && (forall i :: 0 <= i < |h| - 1 && h[i] == '.' ==> IsAsciiAlphaNum(h[i + 1]))
    && (forall i :: 0 <= i < |h| && h[i] == '-' ==> i + 1 < |h| && h[i + 1] != '.')
    && (forall i :: 0 <= i < |h| - 1 && h[i] == '.' && IsAsciiDigit(h[i + 1]) ==> !LastInnerDot(h, i))
  }

  /** The authority of an http URI: the text after "//" up to the path, query or fragment. */
  function Authority(s: string): string
    requires HTTP_SCHEME_PREFIX <= s
  {
    Before(s[|HTTP_SCHEME_PREFIX|..], AUTHORITY_STOPS)
  }

  /** URI.getPath() of an http URI: the text after the authority up to the
      first '?' or '#', not decoded. */
  function HttpPath(s: string): string
    requires HTTP_SCHEME_PREFIX <= s
  {
    Before(s[|HTTP_SCHEME_PREFIX| + |Authority(s)|..], PATH_STOPS)
  }

  /** URI.create on the plain http URIs this model covers: an authority of
      host-name chars with at least one letter. When the authority is not a
      host name, java.net.URI keeps it as a registry-based authority and
      getHost() is null. None for any other text. */
  function ParseHttpUri(s: string): (u: Option<Uri>)
    ensures u.Some? ==> u.value.text == s && UriSafe(s) && u.value.path.Some?
    ensures u.Some? && u.value.host.Some? ==> IsHostName(u.value.host.value)
  {
    if HTTP_SCHEME_PREFIX <= s && IsHostChars(Authority(s)) && HasLetter(Authority(s)) && UriSafe(s)
    then Some(Uri(s, if IsHostName(Authority(s)) then Some(Authority(s)) else None, Some(HttpPath(s))))
    else None
  }

  /** The components of "http://" + host + tail, for a tail that starts the
      path, the query or the fragment. */
  lemma HttpComponents(host: string, tail: string)
    requires forall i :: 0 <= i < |host| ==> host[i] !in AUTHORITY_STOPS
    requires tail == [] || tail[0] in AUTHORITY_STOPS
    ensures HTTP_SCHEME_PREFIX <= HTTP_SCHEME_PREFIX + host + tail
    ensures Authority(HTTP_SCHEME_PREFIX + host + tail) == host
    ensures HttpPath(HTTP_SCHEME_PREFIX + host + tail) == Before(tail, PATH_STOPS)
  {
    var s := HTTP_SCHEME_PREFIX + host + tail;
    assert s[|HTTP_SCHEME_PREFIX|..] == host + tail;
    BeforeStopsAt(host, tail, AUTHORITY_STOPS);
    assert s[|HTTP_SCHEME_PREFIX| + |host|..] == tail;
  }

  /** "http://" + host + tail is URI-safe when host holds host-name chars and
      tail holds URI chars and no fragment mark. */
  lemma {:induction false} UriSafeOfParts(host: string, tail: string)
    requires IsHostChars(host)
    requires forall i :: 0 <= i < |tail| ==> IsUriChar(tail[i]) && tail[i] != '#'
    ensures UriSafe(HTTP_SCHEME_PREFIX + host + tail)
  {
    var s := HTTP_SCHEME_PREFIX + host + tail;
    forall i | 0 <= i < |s|
      ensures IsUriChar(s[i]) && s[i] != '#'
    {
      if i < |HTTP_SCHEME_PREFIX| {
        assert s[i] == HTTP_SCHEME_PREFIX[i];
      } else if i < |HTTP_SCHEME_PREFIX| + |host| {
        assert s[i] == host[i - |HTTP_SCHEME_PREFIX|];
      } else {
        assert s[i] == tail[i - |HTTP_SCHEME_PREFIX| - |host|];
      }
    }
  }

  /** ParseHttpUri on "http://" + host + tail reads back the path, and the
      host exactly when it is a host name. */
  lemma ParseHttpUriOf(host: string, tail: string)
    requires IsHostChars(host) && HasLetter(host)
    requires tail == [] || tail[0] in AUTHORITY_STOPS
    requires UriSafe(HTTP_SCHEME_PREFIX + host + tail)
    ensures ParseHttpUri(HTTP_SCHEME_PREFIX + host + tail)
         == Some(Uri(HTTP_SCHEME_PREFIX + host + tail, if IsHostName(host) then Some(host) else None,
                     Some(Before(tail, PATH_STOPS))))
  {
    HttpComponents(host, tail);
  }

  /** Two labels of letters joined by a dot make a host name. */
  lemma TwoLabelHostName(a: string, b: string)
    requires |a| > 0 && forall i :: 0 <= i < |a| ==> IsAsciiAlpha(a[i])
    requires |b| > 0 && forall i :: 0 <= i < |b| ==> IsAsciiAlpha(b[i])
    ensures IsHostName(a + "." + b) && HasLetter(a + "." + b)
  {
    var h := a + "." + b;
    assert forall i :: 0 <= i < |a| ==> h[i] == a[i];
    assert h[|a|] == '.';
    assert forall i :: |a| < i < |h| ==> h[i] == b[i - |a| - 1];
    assert IsAsciiAlpha(h[0]);
  }

  /** Host names java.net.URI refuses: an empty label, a label that starts
      or ends with a dash, and a digit-led last label. */
  lemma HostNameRefusals()
    ensures !IsHostName("a..b") && !IsHostName("-x") && !IsHostName("x-")
    ensures !IsHostName("x.9y")
  {
    assert "a..b"[1] == '.' && !IsAsciiAlphaNum("a..b"[2]);
    assert "x-"[1] == '-';
    assert "x.9y"[1] == '.' && IsAsciiDigit("x.9y"[2]) && LastInnerDot("x.9y", 1);
  }

  /** A host name may end with a dot. */
  lemma TrailingDotAccepted()
    ensures IsHostName("x.")
  {
  }

  /** A label may start with a digit when it is not the last. */
  lemma DigitLabelAccepted()
    ensures IsHostName("x.9y.com")
  {
    var h := "x.9y.com";
    assert !LastInnerDot(h, 1) by {
      assert h[4] == '.';
    }
  }

}

=== FILE: wrappers.dfy ===
/** Failure-carrying datatypes shared by the model. */
module Wrappers {

  /** Java's nullable reference: None stands for null. */
  datatype Option<+T> = None | Some(value: T)

  /** The result of a step that may end in an exception the adapter does not
      catch (a NullPointerException, an IllegalArgumentException, a transport
      exception from the HTTP client): Throws means it escapes to the caller. */
  datatype Step<+T> = Normal(value: T) | Throws
}
